=== FILE: README.md ===
# Expense settlement core, modelled in Dafny

The application keeps a ledger of shared expenses. Each row has a payer, an
amount and the people who shared the cost. From that ledger it computes two
things:

- a settlement plan: who pays whom, and how much, so that everyone is square;
- a summary table: what each person paid, what they owed, and the difference.

This project models the four functions behind those results, and proves what
they promise.

- **get_participant_data** turns one row into `(total_heads, involved_participants)`.
  - The current version (`src/logic.py`) first reads a list-valued
    `Participants` cell. Each non-empty string in it is one head under its
    stripped name.
  - It then reads the numbered slots `Participant i Name` / `Participant i Members`
    for `i` from 1 to `max_participants`. A missing Members column counts 1.
  - A Members value that `int()` rejects raises `ValueError`. The row is then
    skipped by its caller.
  - The older copy in `app.py` reads only the numbered slots. The model keeps
    both versions. The `Ledger.Normaliser` value (`ListAndSlots` or `SlotsOnly`)
    says which one a computation uses.
- **calculate_settlement** (`src/logic.py`, with a near-identical copy in `app.py`):
  - It returns "Enter some expenses to calculate a settlement." for an empty
    ledger, or when the amounts sum to 0.
  - Otherwise every involved person starts at 0.
  - For each row with a positive amount and a positive head count, the payer
    gains the amount. Each participant loses `amount / total_heads * count`.
  - People below -0.01 are sorted most-indebted first, and people above 0.01
    largest-credit first.
  - A two-cursor greedy loop then emits payments. A cursor advances once its
    person is within a cent of 0.
  - With no payments the result is "Everyone is settled up!".
- **generate_summary**: for every person on a roster, it computes:
  - Total Paid: the `groupby('Payer')` sum of the Amount column;
  - Total Owed: every accepted row's cost per head times the person's heads;
  - Difference: Total Paid minus Total Owed.
- **parse_names**: splits a comma-separated string and strips each piece. It
  drops the blank pieces and returns the distinct names sorted. `app.py:125-130`
  is a verbatim copy of `src/utils.py:34-39`.

How the source's constructs are represented:

- A DataFrame row is a `Ledger.Row`. The participant data is a `seq<Share>`.
- Balances and summary totals are `map<string, real>`.
- The `defaultdict(float)` read is `Balances.Get`.
- Each Python loop that updates local variables is a Dafny method with a
  loop. That covers the `for` loops of get_participant_data, the row
  and participant loops of calculate_settlement and generate_summary, and the
  `while` loop that matches debtors with creditors.
- Most of these methods are proved equal to a specification function, for
  example `Balances.ApplyRows` or `Matching.Greedy`. The properties the source
  promises are proved as lemmas about those functions.
- `Settlement.Settle` is also proved against the soundness properties of the
  plan directly, through the loop invariant `Matching.SettleInv`.
- `Summary.GenerateSummary` has no loop of its own. It calls the loop methods
  `Summary.CopyGroups` and `Summary.TotalOwed`, then builds the table.
- Python's `sorted`, `str.strip` and `str.split` are library calls, so they
  are modelled as functions (modules `Text`, `Names`, `Matching`).
- `Text.Join` is a join with "," alone. The core's only joins are of its
  payment lines, with "\n". The app displays a roster joined with ", ", but
  it never parses that string again.
- `Text.Join` exists only to state an idempotence property of parse_names
  (`Names.ParseNamesIdempotent`, `Text.JoinSplit`). Stripping, then
  `sorted(set(...))`, reaches a fixed point: a roster written out with
  commas parses back to itself. The program never performs this round trip.

Modules:

- `Wrappers`: Option.
- `Ledger`: the data model.
- `Text`: str operations.
- `Names`: parse_names.
- `Participants`: get_participant_data.
- `Balances`: the balance loop of calculate_settlement.
- `Matching`: the owes/gets lists and the greedy loop's invariant.
- `Settlement`: calculate_settlement.
- `Summary`: generate_summary.

Where the code and the behaviour one might expect differ, the model follows
the code:

- A payer cell that is NaN is credited under the name "nan". A blank payer is
  credited under "".
- generate_summary reads `num_participants` slots per row, a value the app's
  Add and Remove buttons change. calculate_settlement instead reads
  `(column count - 3) // 2` slots.
- The Difference column equals the settlement balance when three things
  hold: the two slot counts agree, every row is accepted, and every payer
  cell is already stripped (`Summary.SummaryAgreesWithSettlement`). That
  condition is sufficient, not necessary.
- Without it the two can differ. A skipped row still counts in Total Paid
  (`Summary.SkippedRowStillPaid`). A clean row is charged differently under
  different slot counts (`Summary.SlotCountsDisagree`).
- The greedy loop does not drive every balance to zero. It guarantees that
  when it stops, every debtor or every creditor is within a cent of 0.
  `Settlement.DebtLeftAfterSettling` shows balances that sum to 0 where a
  debtor is left owing 0.02.
- Nobody pays more than their debt, and nobody receives more than their credit.

## Model

| member | source | states |
|---|---|---|
| Names.ParseNames | src/utils.py:34-39 | the roster is strictly sorted (so duplicate-free), every name is non-empty and already stripped, a blank or non-string input gives [], and there are no more names than comma-separated pieces |
| Names.ParseNamesMembers | src/utils.py:39 | a name is in the roster exactly when it is the non-empty strip of some comma-separated piece of the input |
| Names.ParseNamesIdempotent | app.py:125-130 | parse_names reaches a fixed point: parsing the ","-join of a parsed roster gives the same roster back (a property the program never exercises) |
| Names.NamesAreCommaFree | src/utils.py:39 | no parsed name contains a comma, so joining and splitting a roster is lossless |
| Text.Less | src/utils.py:39 | definition: the code-point order `sorted` uses on strings |
| Names.SortedDistinct | src/utils.py:39 | `sorted(set(xs))` is strictly increasing and holds exactly the elements of xs |
| Names.Cleaned | src/utils.py:39 | the strip-and-filter comprehension keeps only non-empty stripped names, never more than the pieces |
| Names.CleanedMembers | src/utils.py:39 | a name survives the comprehension exactly when it is the non-empty strip of a piece |
| Names.SortedDistinctOfSorted | src/utils.py:39 | `sorted(set(xs))` of a strictly sorted list is that list |
| Names.CleanedOfClean | src/utils.py:39 | the comprehension leaves a list of non-empty stripped names unchanged |
| Text.IsSpace | src/utils.py:39 | definition: the characters `str.isspace()` accepts, which `strip()` removes |
| Text.Trim | src/utils.py:39 | `strip()` leaves no whitespace at either end, is empty exactly for an all-whitespace string, and adds no characters |
| Text.TrimIsStrip | src/utils.py:39 | the result of `strip()` is a slice of the input with only whitespace before and after it; with `Trim`'s own ensures (no whitespace at either end) this fixes the result uniquely |
| Text.TrimmedSlice | src/utils.py:39 | dropping a whitespace prefix and then a whitespace suffix leaves such a slice, empty only for a blank input |
| Text.TrimIdempotent | src/utils.py:39 | `strip()` applied twice equals `strip()` once |
| Text.Split | src/utils.py:39 | `split(',')` gives at least one piece, no piece holds a comma, and pieces only hold characters of the input |
| Text.JoinSplit | src/utils.py:39 | joining the pieces of `split(',')` with commas gives back the input |
| Text.SplitJoin | src/utils.py:39 | splitting the comma-join of comma-free pieces gives back the pieces |
| Participants.GetParticipantData | src/logic.py:6-36 | the loops return the list-encoding shares followed by the slot shares, with total heads equal to the sum of their counts; they fail (ValueError) exactly when the slot conversion fails |
| Participants.GetSlotParticipantData | app.py:17-41 | the slot loop returns the shares of the named slots 1..max_participants, with total heads equal to the sum of their counts; it fails exactly when a named slot's Members value is not an integer |
| Participants.ParticipantData | src/logic.py:79 | the call site picks the version in use and keeps its contract |
| Ledger.SumCounts | src/logic.py:18-33 | definition: `total_heads`, the sum of the share counts |
| Participants.ListShares | src/logic.py:15-23 | definition: the list-encoding loop, one share `(strip(p), 1)` per entry that is a non-empty str, in order |
| Participants.Named | src/logic.py:30 | definition: the Name cell is present, not NaN, and does not strip to "" |
| Participants.MemberCount | src/logic.py:32 | definition: `int(row.get(count_col, 1))` of a cell that converts, 1 when the column is absent |
| Participants.Visible | src/logic.py:26-30 | definition: the slots 1..max_participants that exist in the row |
| Participants.SlotShares | src/logic.py:26-34 | definition: the slot loop, one share per named slot in order, or failure when int() raises on a named slot's Members value |
| Participants.Shares | src/logic.py:11-36 | definition: the list part (current version only) followed by the slot part, or failure |
| Participants.ListSharesMembers | src/logic.py:15-23 | the shares of the list encoding are exactly the pairs `(strip(p), 1)` of the entries that are non-empty strs (set membership; multiplicities are in `ListSharesCount`) |
| Participants.ListHeads | src/logic.py:16-18 | definition: how many list entries are non-empty strs that strip to a given name |
| Participants.ListSharesCount | src/logic.py:16-23 | repeated names are not merged: a person's heads from the list encoding equal the number of entries naming them |
| Participants.SlotSharesFail | src/logic.py:26-34 | the slot part fails exactly when some named slot has a Members value int() rejects; unnamed slots never fail |
| Participants.SlotSharesMembers | src/logic.py:26-34 | the shares of the slot part are exactly the pairs `(strip(name), count)` of the named slots, count defaulting to 1 (set membership; multiplicities are in `SlotSharesCount`) |
| Participants.SlotHeads | src/logic.py:30-33 | definition: the Members counts of the named slots that strip to a given name, added up |
| Participants.SlotSharesCount | src/logic.py:26-34 | repeated names are not merged: a person's heads from the slots equal the Members counts of all slots naming them |
| Participants.CountForAppend | src/logic.py:23 | a person's count over two share lists appended is the sum of the two counts |
| Participants.SharesCount | src/logic.py:11-36 | a person's heads in a row are one per list entry naming them (current version) plus the Members counts of the slots naming them |
| Participants.SlotSharesTrimmed | src/logic.py:30-31 | every slot share name is non-empty and stripped |
| Participants.SlotFailurePersists | src/logic.py:32 | once int() raises on a slot, the whole row fails, whatever the later slots hold |
| Participants.SharesShape | src/logic.py:11-36 | a successful row's shares are the list part (count 1 each) then the slot part, every name is stripped, and total heads is the list length plus the slot counts |
| Balances.Get | src/logic.py:47 | definition: a `defaultdict(float)` read, 0 for a missing key |
| Balances.LedgerBalances | src/logic.py:47-89 | definition: the balances dict after the loop, starting at 0 for every involved person and applying the rows in order |
| Balances.PayerName | src/logic.py:73 | definition: `str(payer).strip()`, "nan" for a NaN cell and "" for a blank one, neither filtered out |
| Balances.Accepted | src/logic.py:74-89 | definition: the rows the loop charges, with a positive amount, participant data that converts, and a positive head count |
| Balances.CostPerHead | src/logic.py:82 | definition: `amount / total_heads` of an accepted row |
| Balances.Adjust | src/logic.py:83-85 | definition: `balances[p] += x` on the defaultdict, a missing key starting at 0 |
| Balances.Charges | src/logic.py:84-85 | definition: one charge `cost_per_head * count` per share, in share order |
| Balances.Debit | src/logic.py:84-85 | definition: the participant loop, each charge subtracted from its name's balance in order |
| Balances.RowCredit | src/logic.py:73-83 | definition: what one row credits to a person, its amount when they are the stripped payer of an accepted row, otherwise 0 |
| Balances.RowDebt | src/logic.py:79-85 | definition: what one row debits a person, cost per head times their heads in an accepted row, otherwise 0 |
| Balances.Credited | src/logic.py:71-83 | definition: everything the ledger credits a person as payer, summed over the rows |
| Balances.Owed | src/logic.py:71-85 | definition: everything the ledger debits a person as participant, summed over the rows; it is also generate_summary's Total Owed for a roster name read with the same slot count |
| Balances.ApplyRow | src/logic.py:72-89 | definition: one row credits its payer with the amount and debits each share `cost_per_head * count`; a skipped row changes nothing |
| Balances.ApplyRows | src/logic.py:71-89 | definition: the rows applied in ledger order |
| Balances.InvolvedPeople | src/logic.py:49-61 | definition: the non-NaN payer cells, the str list entries (current version) and the non-NaN Name cells, unstripped |
| Balances.TimesIsProduct | src/logic.py:85 | the model's `Times(cost, count)` is the product `cost_per_head * count` |
| Balances.CostPerHeadTimesHeads | src/logic.py:82 | `amount / total_heads`, charged `total_heads` times, is the amount again |
| Balances.ChargesSum | src/logic.py:84-85 | a row's charges add up to the cost per head times the total head count |
| Balances.ChargesTo | src/logic.py:84-85 | a participant is charged the cost per head times all their heads in the row, across repeated names |
| Balances.DebitAt | src/logic.py:84-85 | applying the charges lowers each person's balance by exactly what they are charged |
| Balances.DebitTotal | src/logic.py:84-85 | applying the charges lowers the sum of all balances by the sum of the charges |
| Balances.DebitShares | src/logic.py:84-85 | the participant loop leaves the balances as after applying the row's charges in order |
| Balances.ProcessRow | src/logic.py:72-89 | one iteration credits the payer and debits the participants of an accepted row, and leaves the balances unchanged when the row is skipped or raises |
| Balances.AccumulateBalances | src/logic.py:71-89 | the row loop leaves the balances as after applying every row in ledger order |
| Balances.ApplyRowConserves | src/logic.py:81-85 | one row never changes the sum of all balances |
| Balances.ApplyRowAt | src/logic.py:76-89 | one row changes a person's balance by what it credits them as payer minus what it charges them as participant; a skipped row changes nothing |
| Balances.ApplyRowsAt | app.py:77-95 | over all rows, a person's balance changes by everything they are credited minus everything they are charged |
| Balances.ApplyRowsMeaning | app.py:87-91 | the row loop keeps the sum of balances and moves each person's balance by credits minus charges |
| Balances.BalancesConserved | src/logic.py:47-89 | the final balances sum to 0, and each person's balance is what they paid for accepted rows minus their share of them |
| Matching.DictOrder | src/logic.py:92 | `balances.items()` enumerates every person of the balances exactly once, in some order |
| Matching.OnSide | src/logic.py:92-93 | definition: `b < -0.01` for owes, `b > 0.01` for gets |
| Matching.Key | src/logic.py:92-93 | definition: the sort keys, `x[1]` for owes and `-x[1]` for gets |
| Matching.NearZero | src/logic.py:107-108 | definition: `abs(b) < 0.01`, the one threshold the loop, `Greedy` and the invariants all use |
| Matching.Select | src/logic.py:92-93 | the comprehension keeps only people below -0.01 (owes) or above 0.01 (gets), each with their balance |
| Matching.SelectPersons | src/logic.py:92-93 | the comprehension selects exactly the people beyond the threshold, each once |
| Matching.SortBy | src/logic.py:92-93 | `sorted(..., key=...)` gives a list ordered by the key with the same elements |
| Matching.Insert | src/logic.py:92-93 | one insertion step of the sort keeps the list ordered and adds exactly the element |
| Matching.SortByPermutes | app.py:98-99 | the sorted list is a permutation of its input |
| Matching.SortByPersons | src/logic.py:92-93 | sorting keeps the set of people |
| Matching.SortByDistinct | src/logic.py:92-93 | sorting keeps each person once |
| Matching.InsertDistinct | src/logic.py:92-93 | inserting a new person keeps each person once |
| Matching.FlowSnoc | src/logic.py:102 | a new payment adds its amount to what its debtor paid and what its creditor received |
| Matching.DebtsStep | src/logic.py:104 | settling a debtor moves their entry towards 0 by the payment and keeps it between the starting debt and 0 |
| Matching.CreditsStep | src/logic.py:105 | settling a creditor moves their entry towards 0 by the payment and keeps it between 0 and the starting credit |
| Matching.CursorStep | src/logic.py:107-108 | a cursor moves past exactly the entries within a cent of 0 |
| Matching.SettleStart | src/logic.py:95-96 | the empty plan with both cursors at 0 satisfies the loop invariant |
| Matching.SettleStep | src/logic.py:97-108 | one iteration keeps the loop invariant (payments of at least a cent between the two lists, nobody over-settled, cursors past the settled) and advances at least one cursor |
| Matching.Greedy | src/logic.py:97-108 | reference definition of the greedy loop: while both cursors are inside their lists, the debtor pays the creditor the smaller of debt and credit, and each cursor moves past an entry now within a cent of 0; no more payments than entries |
| Matching.GreedyUnfold | src/logic.py:98-108 | `Greedy` from a state is that state's payment followed by `Greedy` from the next state |
| Matching.GreedyStart | src/logic.py:95-96 | before the loop, nothing is emitted and `Greedy` from the start is still to come |
| Matching.GreedyStep | src/logic.py:97-108 | one iteration emits the first payment `Greedy` emits from the current state |
| Matching.GreedyEnds | src/logic.py:97 | once a cursor runs off its list, everything `Greedy` emits has been emitted |
| Matching.SettleEnds | src/logic.py:97 | when the loop stops, every debtor or every creditor is within a cent of 0, there are no payments exactly when a list is empty, and fewer payments than people |
| Matching.DistinctPersonsCount | src/logic.py:92-93 | a list with each person once has as many entries as people |
| Settlement.Settle | src/logic.py:95-108 | the loop emits exactly the payments `Greedy` describes (at each step the smaller of the debt and the credit at the two cursors); they are payments of at least a cent from the owes list to the gets list, never over-settle anyone, stop with one side within a cent of 0, are empty exactly when one list is empty, and are fewer than the people |
| Settlement.RankedPeople | src/logic.py:92-93 | owes and gets hold each person beyond the threshold exactly once with their balance, sorted most-extreme first, whatever the dict order |
| Settlement.DebtorsPaid | app.py:103-114 | per debtor: they pay at most their debt, and end within a cent of 0 once every debtor entry does |
| Settlement.CreditorsPaid | app.py:103-114 | per creditor: they receive at most their credit, and end within a cent of 0 once every creditor entry does |
| Settlement.SettlePlan | src/logic.py:92-110 | the loop's per-position guarantees become a sound plan for the balances: valid payments, nobody over-settled, one side settled within a cent, fewer payments than people |
| Settlement.PlanPayments | src/logic.py:91-110 | from the balances: "settled up" exactly when nobody owes or nobody is owed beyond a cent; otherwise the non-empty greedy plan for some order of the dict's keys, which is sound for the balances |
| Settlement.GreedyPlan | src/logic.py:92-108 | definition: the payments `Greedy` emits for the owes and gets lists built in some order of the dict's keys |
| Settlement.CalculateSettlement | src/logic.py:38-110 | the "enter some expenses" message exactly for an empty or zero-sum ledger; otherwise "settled up" exactly when nobody owes or nobody is owed beyond a cent; otherwise the non-empty greedy plan for the ledger's balances, which is sound for them |
| Settlement.Ranked | src/logic.py:92-93 | `owes` or `gets`: the selected entries sorted by the side's key, every one of them on that side of the threshold |
| Settlement.RankedAlone | src/logic.py:92-93 | when one person alone is on a side, that side's list is just them with their balance |
| Settlement.GreedyOneStep | src/logic.py:97-108 | a debtor at -5 and a creditor at 4.98 give one payment of 4.98, after which the debtor still owes 0.02 |
| Settlement.DebtLeftAfterSettling | src/logic.py:92-110 | for balances A -5, C 4.98, D 0.01, E 0.01 (summing to 0), under any dict order the plan is A pays C 4.98 and A is left owing 0.02 |
| Settlement.MaxParticipants | src/logic.py:69 | definition: `(column count - 3) // 2`, with a negative value read as 0 |
| Settlement.SumAmounts | src/logic.py:43 | definition: the sum of the Amount column |
| Summary.PaidBy | src/logic.py:124 | definition: the Amount of every row whose Payer cell is exactly the name, skipped rows included |
| Summary.GroupSums | src/logic.py:124 | definition: the groupby sums, one per non-NaN Payer cell |
| Summary.Payers | src/logic.py:124 | definition: the non-NaN Payer cells, the keys of the groupby |
| Summary.Accrue | src/logic.py:140-142 | definition: the participant loop, `total_owed[p] += cost_per_head * count` for each share whose name is on the roster |
| Summary.OweRow | src/logic.py:131-144 | definition: one accepted row adds `cost_per_head * count` to each share's name that is on the roster |
| Summary.OweRows | src/logic.py:130-144 | definition: the rows accrued in ledger order |
| Summary.PaidByAbsent | src/logic.py:125-127 | a roster name that never occurs as payer keeps Total Paid 0 |
| Summary.CopyGroups | src/logic.py:125-127 | copying the group sums into total_paid keeps the roster's keys and overwrites exactly the roster names that paid |
| Summary.AccrueAt | src/logic.py:140-142 | accruing charges adds to each roster name exactly its charges and ignores names off the roster |
| Summary.AccrueShares | src/logic.py:140-142 | the participant loop accrues the row's charges to roster names only |
| Summary.AccrueRow | src/logic.py:131-144 | one iteration adds an accepted row's charges to the roster names and skips rejected rows |
| Summary.OweRowAt | src/logic.py:131-144 | one row adds to each roster name exactly its debt in that row |
| Summary.OweRowsAt | src/logic.py:130-144 | over all rows, each roster name's Total Owed is its total share of the accepted rows |
| Summary.TotalOwed | app.py:149-163 | the owed loop leaves total_owed as after accruing every row in ledger order |
| Summary.GenerateSummary | src/logic.py:112-151 | one column per roster name, in roster order, with Total Paid its payer sum, Total Owed its total share and Difference their difference, all zero for an empty ledger |
| Summary.CleanRowCredit | src/logic.py:73-83 | an accepted row with a stripped payer cell credits exactly that payer with its amount |
| Summary.PaidByCredited | src/logic.py:123-127 | when each row credits its payer cell with its amount, Total Paid is what the balance loop credits |
| Summary.SummaryAgreesWithBalances | src/logic.py:147-149 | when both computations read the same number of slots, every row is accepted and every payer is stripped, a person's Difference is their balance |
| Summary.SummaryAgreesWithSettlement | src/logic.py:147-149 | when the summary's num_participants equals calculate_settlement's `(column count - 3) // 2`, every row is accepted and every payer is stripped, a person's Difference is the balance calculate_settlement settles |
| Summary.SlotCountsDisagree | src/logic.py:69 | for any stripped names, a clean 7-column row where `a` pays 30 for slots `b` and `c` gives `b` a Difference of -30 in a one-slot summary (src/logic.py:136) but a balance of -15 in calculate_settlement, which reads 2 slots |
| Summary.SkippedRowStillPaid | src/logic.py:123-127 | a positive row without participants counts in Total Paid (Difference 10) yet leaves the balance at 0 |

## Left out

- Floating point: amounts and balances are exact reals, so rounding in `amount / total_heads` and in the running sums is not modelled. The 0.01 thresholds are kept exactly.
- NaN or non-numeric amounts: `float()` raising, or a NaN amount, is not modelled. The Amount cell is a number.
- Formatting: a payment line is the `Ledger.Transfer` record, not the `f"... ${amount:.2f}"` string or the newline join.
- The `st.warning` call of app.py:94 is user-interface output. It is dropped; the row is still skipped.
- Missing columns: the `'Amount' not in expenses_df` and `'Payer' in df` guards, and the KeyError the app.py copies raise without them, are not modelled. Every row has a payer cell and an amount.
- Cells are already classified. A list entry that is not a str is `None`. A Members cell is a converted integer, absent, or rejected by `int()`. A Name cell is its `str()` form.
- `'Name' in col` matches every column whose title contains "Name". Only the numbered Participant Name columns are modelled.
- `max_participants` is computed from the column count by `Settlement.MaxParticipants`. The column layout itself is not modelled.
- Dict and set iteration order is modelled as an arbitrary order (`Matching.DictOrder`, `Summary.CopyGroups`). Every property is proved for any order.
- Matching.SortBy: sortedness, permutation and membership are proved; stability (the tie order `sorted` keeps) is not.
- Balances.ProcessRow: writes `cost_per_head * count` as `Balances.Times`, proved equal to the product by `Balances.TimesIsProduct`.
- Balances.AccumulateBalances: its ensures ties the result to `ApplyRows`. Conservation and per-person meaning are in `Balances.ApplyRowsMeaning` and `Balances.BalancesConserved`.
- Summary.TotalOwed: its ensures ties the result to `OweRows`. The per-person meaning is in `Summary.OweRowsAt`.
- Summary.GenerateSummary: returns a `seq<Column>` in roster order, not a DataFrame. A roster with repeated names, which `reindex` would repeat, is not treated specially.
- Settlement.CalculateSettlement: proves that one side ends within a cent of 0, not that every balance reaches 0. The loop does not guarantee the latter.

=== FILE: balances.dfy ===
/** The balance side of calculate_settlement: every row a payer fronted is
    credited to the payer and debited to the participants in proportion to
    their head counts. A positive balance is owed to the person, a negative
    one is owed by them. */
module Balances {
  import opened Wrappers
  import opened Ledger
  import opened Participants
  import Text

  /** `balances[p]` of the defaultdict(float): 0.0 for a name never seen. */
  function Get(b: map<string, real>, p: string): real
  {
    if p in b then b[p] else 0.0
  }

  /** `str(row['Payer']).strip()`. A NaN cell prints as "nan"; a blank payer
      strips to "". Neither is filtered: the `pd.isna` test on this string
      never holds. */
  function PayerName(row: Row): string
  {
    if row.payer.Some? then Text.Trim(row.payer.value) else "nan"
  }

  /** The rows the loop charges: a positive amount, participant data that
      converts, and a positive total head count. Every other row is skipped. */
  predicate Accepted(row: Row, maxParticipants: nat, n: Normaliser)
  {
    row.amount > 0.0
    && Shares(row, maxParticipants, n).Some?
    && SumCounts(Shares(row, maxParticipants, n).value) > 0
  }

  /** `cost_per_head = amount / total_heads` of an accepted row. */
  function CostPerHead(row: Row, maxParticipants: nat, n: Normaliser): real
    requires Accepted(row, maxParticipants, n)
  {
    row.amount / SumCounts(Shares(row, maxParticipants, n).value) as real
  }

  /** `balances[p] += x` on the defaultdict. */
  function Adjust(b: map<string, real>, p: string, x: real): map<string, real>
  {
    b[p := Get(b, p) + x]
  }

  /** One `balances[participant] -= cost_per_head * count` of a row. */
  datatype Charge = Charge(name: string, amount: real)

  /** `cost * count` for an integer count, written as repeated addition so
      that the proofs stay in linear arithmetic; `TimesIsProduct` shows it is
      the product. */
  function Times(cost: real, count: int): real
    decreases if count < 0 then -count else count
  {
    if count == 0 then 0.0
    else if count > 0 then Times(cost, count - 1) + cost
    else Times(cost, count + 1) - cost
  }

  lemma {:induction false} TimesIsProduct(cost: real, count: int)
    ensures Times(cost, count) == cost * count as real
    decreases if count < 0 then -count else count
  {
    if count > 0 { TimesIsProduct(cost, count - 1); }
    else if count < 0 { TimesIsProduct(cost, count + 1); }
  }

  /** Multiplication by an integer distributes over addition of counts. */
  lemma {:induction false} TimesAdd(cost: real, a: int, b: int)
    ensures Times(cost, a + b) == Times(cost, a) + Times(cost, b)
    decreases if b < 0 then -b else b
  {
    if b > 0 { TimesAdd(cost, a, b - 1); }
    else if b < 0 { TimesAdd(cost, a, b + 1); }
  }

  /** The cost per head times the head count is the amount. */
  lemma CostPerHeadTimesHeads(amount: real, heads: int)
    requires heads > 0
    ensures Times(amount / heads as real, heads) == amount
  {
    TimesIsProduct(amount / heads as real, heads);
  }

  /** The charges of a row whose cost per head is `cost`, one per share, in order. */
  function Charges(shares: seq<Share>, cost: real): (cs: seq<Charge>)
    ensures |cs| == |shares|
  {
    if shares == [] then []
    else Charges(shares[..|shares| - 1], cost)
         + [Charge(shares[|shares| - 1].name, Times(cost, shares[|shares| - 1].count))]
  }

  /** Applies the charges in order. */
  function Debit(b: map<string, real>, cs: seq<Charge>): map<string, real>
  {
    if cs == [] then b
    else Adjust(Debit(b, cs[..|cs| - 1]), cs[|cs| - 1].name, -cs[|cs| - 1].amount)
  }

  /** Sum of the amounts of the charges. */
  function ChargeSum(cs: seq<Charge>): real
  {
    if cs == [] then 0.0 else ChargeSum(cs[..|cs| - 1]) + cs[|cs| - 1].amount
  }

  /** Sum of the amounts of the charges to `p`. */
  function ChargedTo(cs: seq<Charge>, p: string): real
  {
    if cs == [] then 0.0
    else ChargedTo(cs[..|cs| - 1], p) + (if cs[|cs| - 1].name == p then cs[|cs| - 1].amount else 0.0)
  }

  /** The effect of one row on the balances: the payer gains the amount, then
      each participant loses `cost_per_head * count`; a skipped row changes nothing. */
  function ApplyRow(b: map<string, real>, row: Row, maxParticipants: nat, n: Normaliser): map<string, real>
  {
    if !Accepted(row, maxParticipants, n) then b
    else
      var payer := PayerName(row);
      Debit(b[payer := Get(b, payer) + row.amount],
            Charges(Shares(row, maxParticipants, n).value, CostPerHead(row, maxParticipants, n)))
  }

  /** The balances after the rows, in ledger order. */
  function ApplyRows(b: map<string, real>, rows: seq<Row>, maxParticipants: nat, n: Normaliser): map<string, real>
  {
    if rows == [] then b
    else ApplyRow(ApplyRows(b, rows[..|rows| - 1], maxParticipants, n), rows[|rows| - 1], maxParticipants, n)
  }

  /** `involved_people`: the non-NaN payer cells, the list entries (current
      version only) and the non-NaN slot name cells, all as written (unstripped). */
  function InvolvedPeople(rows: seq<Row>, n: Normaliser): set<string>
  {
    (set r | r in rows && r.payer.Some? :: r.payer.value)
    + (if n == ListAndSlots
       then set r, e | r in rows && r.participants.Some? && e in r.participants.value && e.Some? :: e.value
       else {})
    + (set r, s | r in rows && s in r.slots && s.name.Some? :: s.name.value)
  }

  /** The balances calculate_settlement computes: everyone involved starts at 0,
      then every row is applied. */
  function LedgerBalances(rows: seq<Row>, maxParticipants: nat, n: Normaliser): map<string, real>
  {
    ApplyRows(map p | p in InvolvedPeople(rows, n) :: 0.0, rows, maxParticipants, n)
  }

  /** What one row credits to `p`: the amount, when `p` paid an accepted row. */
  function RowCredit(row: Row, maxParticipants: nat, n: Normaliser, p: string): real
  {
    if Accepted(row, maxParticipants, n) && PayerName(row) == p then row.amount else 0.0
  }

  /** What one row debits to `p`: its cost per head times `p`'s heads in it. */
  function RowDebt(row: Row, maxParticipants: nat, n: Normaliser, p: string): real
  {
    if Accepted(row, maxParticipants, n)
    then Times(CostPerHead(row, maxParticipants, n), CountFor(Shares(row, maxParticipants, n).value, p))
    else 0.0
  }

  /** Everything the rows credit to `p` as payer. */
  function Credited(rows: seq<Row>, maxParticipants: nat, n: Normaliser, p: string): real
  {
    if rows == [] then 0.0
    else Credited(rows[..|rows| - 1], maxParticipants, n, p) + RowCredit(rows[|rows| - 1], maxParticipants, n, p)
  }

  /** Everything the rows debit to `p` as participant; generate_summary's Total Owed. */
  function Owed(rows: seq<Row>, maxParticipants: nat, n: Normaliser, p: string): real
  {
    if rows == [] then 0.0
    else Owed(rows[..|rows| - 1], maxParticipants, n, p) + RowDebt(rows[|rows| - 1], maxParticipants, n, p)
  }

  /** The sum of all balances. */
  ghost function Total(b: map<string, real>): real
    decreases |b|
  {
    if b == map[] then 0.0
    else
      var p :| p in b;
      assert |b - {p}| < |b| by { assert (b - {p}).Keys == b.Keys - {p}; }
      b[p] + Total(b - {p})
  }

  /** The sum does not depend on which name is taken out first. */
  lemma {:induction false} TotalRemove(b: map<string, real>, p: string)
    requires p in b
    ensures Total(b) == b[p] + Total(b - {p})
    decreases |b|
  {
    var q :| q in b && Total(b) == b[q] + Total(b - {q});
    if q != p {
      assert (b - {q}).Keys == b.Keys - {q} && (b - {p}).Keys == b.Keys - {p};
      TotalRemove(b - {q}, p);
      TotalRemove(b - {p}, q);
      assert b - {q} - {p} == b - {p} - {q};
    }
  }

  /** Adding `x` to one balance adds `x` to the sum. */
  lemma TotalUpdate(b: map<string, real>, p: string, x: real)
    ensures Total(b[p := Get(b, p) + x]) == Total(b) + x
  {
    var b' := b[p := Get(b, p) + x];
    TotalRemove(b', p);
    if p in b {
      TotalRemove(b, p);
      assert b' - {p} == b - {p};
    } else {
      assert b' - {p} == b;
    }
  }

  /** A map of zero balances sums to zero. */
  lemma {:induction false} TotalZero(b: map<string, real>)
    requires forall p :: p in b ==> b[p] == 0.0
    ensures Total(b) == 0.0
    decreases |b|
  {
    if b != map[] {
      var p :| p in b;
      TotalRemove(b, p);
      assert (b - {p}).Keys == b.Keys - {p};
      TotalZero(b - {p});
    }
  }

  /** Applying charges takes their sum off the sum of the balances. */
  lemma {:induction false} DebitTotal(b: map<string, real>, cs: seq<Charge>)
    ensures Total(Debit(b, cs)) == Total(b) - ChargeSum(cs)
  {
    if cs != [] {
      DebitTotal(b, cs[..|cs| - 1]);
      TotalUpdate(Debit(b, cs[..|cs| - 1]), cs[|cs| - 1].name, -cs[|cs| - 1].amount);
    }
  }

  /** Applying charges takes from `p` the sum of the charges to `p`. */
  lemma {:induction false} DebitAt(b: map<string, real>, cs: seq<Charge>, p: string)
    ensures Get(Debit(b, cs), p) == Get(b, p) - ChargedTo(cs, p)
  {
    if cs != [] {
      DebitAt(b, cs[..|cs| - 1], p);
    }
  }

  /** A row's charges add up to the cost per head times the head count. */
  lemma {:induction false} ChargesSum(shares: seq<Share>, cost: real)
    ensures ChargeSum(Charges(shares, cost)) == Times(cost, SumCounts(shares))
  {
    if shares != [] {
      var init := shares[..|shares| - 1];
      ChargesSum(init, cost);
      assert Charges(shares, cost)[..|shares| - 1] == Charges(init, cost);
      TimesAdd(cost, SumCounts(init), shares[|shares| - 1].count);
    }
  }

  /** The charges to `p` add up to the cost per head times `p`'s heads. */
  lemma {:induction false} ChargesTo(shares: seq<Share>, cost: real, p: string)
    ensures ChargedTo(Charges(shares, cost), p) == Times(cost, CountFor(shares, p))
  {
    if shares != [] {
      var init := shares[..|shares| - 1];
      ChargesTo(init, cost, p);
      assert Charges(shares, cost)[..|shares| - 1] == Charges(init, cost);
      TimesAdd(cost, CountFor(init, p), shares[|shares| - 1].count);
    }
  }

  /** Processing a row leaves the sum of all balances unchanged: the payer
      gains the amount and the participants together lose the amount. */
  lemma ApplyRowConserves(b: map<string, real>, row: Row, maxParticipants: nat, n: Normaliser)
    ensures Total(ApplyRow(b, row, maxParticipants, n)) == Total(b)
  {
    if Accepted(row, maxParticipants, n) {
      var shares := Shares(row, maxParticipants, n).value;
      var cost := CostPerHead(row, maxParticipants, n);
      ChargesSum(shares, cost);
      CostPerHeadTimesHeads(row.amount, SumCounts(shares));
      ChargeConserves(b, PayerName(row), row.amount, Charges(shares, cost));
    }
  }

  /** Crediting `amount` to the payer and then applying charges that add up
      to `amount` keeps the sum of the balances. */
  lemma ChargeConserves(b: map<string, real>, payer: string, amount: real, cs: seq<Charge>)
    requires ChargeSum(cs) == amount
    ensures Total(Debit(b[payer := Get(b, payer) + amount], cs)) == Total(b)
  {
    TotalUpdate(b, payer, amount);
    DebitTotal(b[payer := Get(b, payer) + amount], cs);
  }

  /** One row moves `p`'s balance by what it credits minus what it debits to
      `p`; a skipped row (amount <= 0, a Members cell int() rejects, or no
      positive head count) leaves every balance as it was. */
  lemma ApplyRowAt(b: map<string, real>, row: Row, maxParticipants: nat, n: Normaliser, p: string)
    ensures Get(ApplyRow(b, row, maxParticipants, n), p)
         == Get(b, p) + RowCredit(row, maxParticipants, n, p) - RowDebt(row, maxParticipants, n, p)
    ensures !Accepted(row, maxParticipants, n) ==> ApplyRow(b, row, maxParticipants, n) == b
  {
    if Accepted(row, maxParticipants, n) {
      var payer := PayerName(row);
      var credited := b[payer := Get(b, payer) + row.amount];
      var shares := Shares(row, maxParticipants, n).value;
      var cost := CostPerHead(row, maxParticipants, n);
      DebitAt(credited, Charges(shares, cost), p);
      ChargesTo(shares, cost, p);
      assert Get(credited, p) == Get(b, p) + RowCredit(row, maxParticipants, n, p);
    }
  }

  /** After the rows, `p`'s balance has moved by all it was credited as payer
      minus all it owes as participant. */
  lemma {:induction false} ApplyRowsAt(b: map<string, real>, rows: seq<Row>, maxParticipants: nat, n: Normaliser, p: string)
    ensures Get(ApplyRows(b, rows, maxParticipants, n), p)
         == Get(b, p) + Credited(rows, maxParticipants, n, p) - Owed(rows, maxParticipants, n, p)
  {
    if rows != [] {
      ApplyRowsAt(b, rows[..|rows| - 1], maxParticipants, n, p);
      ApplyRowAt(ApplyRows(b, rows[..|rows| - 1], maxParticipants, n), rows[|rows| - 1], maxParticipants, n, p);
    }
  }

  /** Processing the rows keeps the sum of all balances. */
  lemma {:induction false} ApplyRowsConserve(b: map<string, real>, rows: seq<Row>, maxParticipants: nat, n: Normaliser)
    ensures Total(ApplyRows(b, rows, maxParticipants, n)) == Total(b)
  {
    if rows != [] {
      ApplyRowsConserve(b, rows[..|rows| - 1], maxParticipants, n);
      ApplyRowConserves(ApplyRows(b, rows[..|rows| - 1], maxParticipants, n), rows[|rows| - 1], maxParticipants, n);
    }
  }

  /** Processing the rows keeps the sum of the balances and moves each
      person's balance by what they paid minus what they owe. */
  lemma ApplyRowsMeaning(b: map<string, real>, rows: seq<Row>, maxParticipants: nat, n: Normaliser)
    ensures Total(ApplyRows(b, rows, maxParticipants, n)) == Total(b)
    ensures forall p :: Get(ApplyRows(b, rows, maxParticipants, n), p)
                     == Get(b, p) + Credited(rows, maxParticipants, n, p) - Owed(rows, maxParticipants, n, p)
  {
    ApplyRowsConserve(b, rows, maxParticipants, n);
    forall p ensures Get(ApplyRows(b, rows, maxParticipants, n), p)
                  == Get(b, p) + Credited(rows, maxParticipants, n, p) - Owed(rows, maxParticipants, n, p) {
      ApplyRowsAt(b, rows, maxParticipants, n, p);
    }
  }

  /** The balances of a ledger sum to zero, and each person's balance is
      what they paid on accepted rows minus what they owe. */
  lemma BalancesConserved(rows: seq<Row>, maxParticipants: nat, n: Normaliser)
    ensures Total(LedgerBalances(rows, maxParticipants, n)) == 0.0
    ensures forall p :: Get(LedgerBalances(rows, maxParticipants, n), p)
                     == Credited(rows, maxParticipants, n, p) - Owed(rows, maxParticipants, n, p)
  {
    var init := map p | p in InvolvedPeople(rows, n) :: 0.0;
    TotalZero(init);
    ApplyRowsConserve(init, rows, maxParticipants, n);
    forall p ensures Get(LedgerBalances(rows, maxParticipants, n), p)
                  == Credited(rows, maxParticipants, n, p) - Owed(rows, maxParticipants, n, p) {
      ApplyRowsAt(init, rows, maxParticipants, n, p);
    }
  }

  /** The inner loop of calculate_settlement over one accepted row's
      participants: `balances[participant] -= cost_per_head * count`. */
  method DebitShares(b: map<string, real>, shares: seq<Share>, cost: real) returns (balances: map<string, real>)
    ensures balances == Debit(b, Charges(shares, cost))
  {
    balances := b;
    for k := 0 to |shares|
      invariant balances == Debit(b, Charges(shares[..k], cost))
    {
      ghost var before := balances;
      balances := balances[shares[k].name := Get(balances, shares[k].name) - Times(cost, shares[k].count)];
      DebitShareStep(b, shares, cost, k, before, balances);
    }
    assert shares[..|shares|] == shares;
  }

  /** Charging one more share adjusts the balances charged so far. */
  lemma DebitShareStep(b: map<string, real>, shares: seq<Share>, cost: real, k: nat,
                       before: map<string, real>, after: map<string, real>)
    requires k < |shares|
    requires before == Debit(b, Charges(shares[..k], cost))
    requires after == before[shares[k].name := Get(before, shares[k].name) - Times(cost, shares[k].count)]
    ensures after == Debit(b, Charges(shares[..k + 1], cost))
  {
    var c := Charge(shares[k].name, Times(cost, shares[k].count));
    ChargesSnoc(shares, cost, k);
    DebitSnoc(b, Charges(shares[..k], cost), c);
    assert after == Adjust(before, c.name, -c.amount);
  }

  /** The charges of one more share. */
  lemma ChargesSnoc(shares: seq<Share>, cost: real, k: nat)
    requires k < |shares|
    ensures Charges(shares[..k + 1], cost)
         == Charges(shares[..k], cost) + [Charge(shares[k].name, Times(cost, shares[k].count))]
  {
    assert shares[..k + 1][..k] == shares[..k];
  }

  /** Applying one more charge. */
  lemma DebitSnoc(b: map<string, real>, cs: seq<Charge>, c: Charge)
    ensures Debit(b, cs + [c]) == Adjust(Debit(b, cs), c.name, -c.amount)
  {
    assert (cs + [c])[..|cs|] == cs;
  }

  /** Applying one more row of the ledger. */
  lemma ApplyRowsStep(b: map<string, real>, rows: seq<Row>, maxParticipants: nat, n: Normaliser, i: nat)
    requires i < |rows|
    ensures ApplyRows(b, rows[..i + 1], maxParticipants, n)
         == ApplyRow(ApplyRows(b, rows[..i], maxParticipants, n), rows[i], maxParticipants, n)
  {
    assert rows[..i + 1][..i] == rows[..i];
  }

  /** The body of the per-row loop of calculate_settlement: a row with a
      non-positive amount, a Members cell int() rejects or no positive head
      count is skipped; otherwise the payer is credited and the participants
      are charged. */
  method ProcessRow(b: map<string, real>, row: Row, maxParticipants: nat, n: Normaliser)
    returns (balances: map<string, real>)
    ensures balances == ApplyRow(b, row, maxParticipants, n)
  {
    balances := b;
    var payer := PayerName(row);
    if row.amount <= 0.0 {
      return;
    }
    var data := ParticipantData(row, maxParticipants, n);
    if data.None? {
      return;  // int() raised: the except clause skips the row
    }
    var totalHeads := data.value.totalHeads;
    if totalHeads > 0 {
      var cost := row.amount / totalHeads as real;
      balances := balances[payer := Get(balances, payer) + row.amount];
      balances := DebitShares(balances, data.value.shares, cost);
    }
  }

  /** The per-row loop of calculate_settlement: the balances it leaves are the
      starting ones with every row applied (see `ApplyRowsMeaning`). */
  method AccumulateBalances(init: map<string, real>, rows: seq<Row>, maxParticipants: nat, n: Normaliser)
    returns (balances: map<string, real>)
    ensures balances == ApplyRows(init, rows, maxParticipants, n)
  {
    balances := init;
    for i := 0 to |rows|
      invariant balances == ApplyRows(init, rows[..i], maxParticipants, n)
    {
      ApplyRowsStep(init, rows, maxParticipants, n, i);
      balances := ProcessRow(balances, rows[i], maxParticipants, n);
    }
    assert rows[..|rows|] == rows;
  }

}

=== FILE: ledger.dfy ===
/** The ledger the settlement engine reads: expense rows as the DataFrame
    presents them, participant shares, and the settlement results. */
module Ledger {
  import opened Wrappers

  /** The `Participant i Members` cell of a numbered slot. */
  datatype Members =
    | NoColumn        // the row has no such column: `row.get(..., 1)` gives 1
    | Count(n: int)   // a value Python's int() converts, already converted
    | NotInteger      // a value int() rejects (text, NaN): it raises ValueError

  /** A numbered participant slot. `name` is the str() form of the
      `Participant i Name` cell, or None when that cell is NaN. */
  datatype Slot = Slot(name: Option<string>, members: Members)

  /** One expense row.
      - `payer`: str() form of the Payer cell, None when the cell is NaN;
      - `amount`: the Amount cell (a number);
      - `participants`: the Participants cell when it holds a list, each entry
        Some(s) when it is a str and None otherwise;
      - `slots`: the `Participant i Name/Members` columns present in the row,
        slot i (counting from 1) at index i - 1. */
  datatype Row = Row(
    payer: Option<string>,
    amount: real,
    participants: Option<seq<Option<string>>>,
    slots: seq<Slot>)

  /** One `(participant, count)` pair of `involved_participants`. */
  datatype Share = Share(name: string, count: int)

  /** The pair `(total_heads, involved_participants)` get_participant_data returns. */
  datatype Normalised = Normalised(totalHeads: int, shares: seq<Share>)

  /** Which `get_participant_data` reads the rows: the current one in
      src/logic.py (list encoding and numbered slots) or the older one in app.py
      (numbered slots only). */
  datatype Normaliser = ListAndSlots | SlotsOnly

  /** Sum of the counts of a list of shares. */
  function SumCounts(shares: seq<Share>): int
  {
    if shares == [] then 0
    else SumCounts(shares[..|shares| - 1]) + shares[|shares| - 1].count
  }

  /** Total count of the shares that name `p` (a name may occur several times). */
  function CountFor(shares: seq<Share>, p: string): int
  {
    if shares == [] then 0
    else CountFor(shares[..|shares| - 1], p) + (if shares[|shares| - 1].name == p then shares[|shares| - 1].count else 0)
  }

  /** One suggested payment, `debtor pays creditor: $amount`. */
  datatype Transfer = Transfer(debtor: string, creditor: string, amount: real)

  /** What calculate_settlement returns: the "Enter some expenses to calculate
      a settlement." message, the "Everyone is settled up!" message, or the
      payment lines. */
  datatype Settlement =
    | NothingToSettle
    | SettledUp
    | Payments(transfers: seq<Transfer>)

}

=== FILE: matching.dfy ===
/** The pieces of the settlement plan of calculate_settlement: the `owes`
    and `gets` lists built from the balances, their sorting, and the facts
    the two-cursor greedy loop keeps from one iteration to the next. */
module Matching {
  import opened Ledger

  /** A `(person, balance)` pair of `balances.items()`. */
  datatype Entry = Entry(person: string, balance: real)

  /** Which of the two lists an entry goes to: `owes` or `gets`. */
  datatype Side = Debtor | Creditor

  /** `b < -0.01` for `owes`, `b > 0.01` for `gets`: balances within a cent of
      zero take part in neither list. */
  predicate OnSide(balance: real, side: Side) {
    if side == Debtor then balance < -0.01 else balance > 0.01
  }

  /** Everyone whose balance puts them on `side`. */
  function People(b: map<string, real>, side: Side): set<string>
  {
    set p | p in b && OnSide(b[p], side)
  }

  /** The persons of a list of entries. */
  function Persons(es: seq<Entry>): set<string>
  {
    set e | e in es :: e.person
  }

  /** No person occurs twice. */
  predicate DistinctPersons(es: seq<Entry>) {
    forall i, j :: 0 <= i < j < |es| ==> es[i].person != es[j].person
  }

  /** No key occurs twice. */
  predicate Distinct(xs: seq<string>) {
    forall i, j :: 0 <= i < j < |xs| ==> xs[i] != xs[j]
  }

  /** Iterating a dict visits its keys once each, in an order this model does
      not fix (the set `involved_people` is filled in hash order). */
  method DictOrder(b: map<string, real>) returns (order: seq<string>)
    ensures Distinct(order)
    ensures forall p :: p in order <==> p in b
  {
    order := [];
    var remaining := b.Keys;
    while remaining != {}
      invariant Distinct(order)
      invariant forall p :: p in order ==> p in b && p !in remaining
      invariant forall p :: p in b ==> p in order || p in remaining
      invariant remaining <= b.Keys
      decreases |remaining|
    {
      var p :| p in remaining;
      order := order + [p];
      remaining := remaining - {p};
    }
  }

  /** `[(p, b) for p, b in balances.items() if ...]` with the keys visited in `order`. */
  function Select(b: map<string, real>, order: seq<string>, side: Side): (es: seq<Entry>)
    requires forall k :: 0 <= k < |order| ==> order[k] in b
    ensures forall k :: 0 <= k < |es| ==>
      es[k].person in b && es[k].balance == b[es[k].person] && OnSide(es[k].balance, side)
    ensures |es| <= |order|
  {
    if order == [] then []
    else
      var p := order[|order| - 1];
      Select(b, order[..|order| - 1], side) + (if OnSide(b[p], side) then [Entry(p, b[p])] else [])
  }

  /** The entries selected from a dict order are exactly the people on that side. */
  lemma {:induction false} SelectPersons(b: map<string, real>, order: seq<string>, side: Side)
    requires forall k :: 0 <= k < |order| ==> order[k] in b
    requires Distinct(order)
    ensures forall p :: p in Persons(Select(b, order, side)) <==> p in order && OnSide(b[p], side)
    ensures DistinctPersons(Select(b, order, side))
  {
    if order != [] {
      var init := order[..|order| - 1];
      var p := order[|order| - 1];
      SelectPersons(b, init, side);
      var es := Select(b, order, side);
      var prev := Select(b, init, side);
      assert forall q :: q in order <==> q in init || q == p;
      assert p !in init;
      if OnSide(b[p], side) {
        assert es == prev + [Entry(p, b[p])];
        assert Persons(es) == Persons(prev) + {p};
      } else {
        assert es == prev;
      }
    }
  }

  /** The sort key: `x[1]` for owes, `-x[1]` for gets. */
  function Key(e: Entry, side: Side): real
  {
    if side == Debtor then e.balance else -e.balance
  }

  predicate SortedBy(es: seq<Entry>, side: Side) {
    forall i, j :: 0 <= i < j < |es| ==> Key(es[i], side) <= Key(es[j], side)
  }

  /** Places `e` after every entry whose key does not exceed its own. */
  function Insert(e: Entry, es: seq<Entry>, side: Side): (r: seq<Entry>)
    requires SortedBy(es, side)
    ensures SortedBy(r, side)
    ensures forall x :: x in r <==> x == e || x in es
    ensures |r| == |es| + 1
  {
    if es == [] then [e]
    else if Key(e, side) < Key(es[0], side) then [e] + es
    else
      var rest := Insert(e, es[1..], side);
      assert forall x :: x in es[1..] ==> x in es;
      assert forall x :: x in rest ==> Key(es[0], side) <= Key(x, side) by {
        forall x | x in rest ensures Key(es[0], side) <= Key(x, side) {
          if x != e {
            var k :| 0 <= k < |es[1..]| && es[1..][k] == x;
            assert es[k + 1] == x;
          }
        }
      }
      [es[0]] + rest
  }

  /** Python's `sorted(entries, key=...)`: the entries in increasing key
      order (`SortByPermutes`: a permutation of them). */
  function SortBy(es: seq<Entry>, side: Side): (r: seq<Entry>)
    ensures SortedBy(r, side)
    ensures forall x :: x in r <==> x in es
    ensures |r| == |es|
  {
    if es == [] then []
    else
      var init := es[..|es| - 1];
      assert forall x :: x in es <==> x in init || x == es[|es| - 1];
      Insert(es[|es| - 1], SortBy(init, side), side)
  }

  /** Inserting adds exactly one copy of the entry. */
  lemma {:induction false} InsertPermutes(e: Entry, es: seq<Entry>, side: Side)
    requires SortedBy(es, side)
    ensures multiset(Insert(e, es, side)) == multiset(es) + multiset{e}
  {
    if es != [] && Key(e, side) >= Key(es[0], side) {
      InsertPermutes(e, es[1..], side);
      assert es == [es[0]] + es[1..];
    }
  }

  /** Sorting is a permutation. */
  lemma {:induction false} SortByPermutes(es: seq<Entry>, side: Side)
    ensures multiset(SortBy(es, side)) == multiset(es)
  {
    if es != [] {
      var init := es[..|es| - 1];
      SortByPermutes(init, side);
      InsertPermutes(es[|es| - 1], SortBy(init, side), side);
      assert es == init + [es[|es| - 1]];
    }
  }

  lemma PersonsCons(x: Entry, es: seq<Entry>)
    ensures Persons([x] + es) == {x.person} + Persons(es)
  {
    assert forall y :: y in [x] + es <==> y == x || y in es;
  }

  lemma PersonsSnoc(es: seq<Entry>, x: Entry)
    ensures Persons(es + [x]) == Persons(es) + {x.person}
  {
    assert forall y :: y in es + [x] <==> y == x || y in es;
  }

  lemma DistinctCons(x: Entry, es: seq<Entry>)
    ensures DistinctPersons([x] + es) <==> x.person !in Persons(es) && DistinctPersons(es)
  {
    var r := [x] + es;
    if DistinctPersons(r) {
      forall y | y in es ensures y.person != x.person {
        var k :| 0 <= k < |es| && es[k] == y;
        assert r[0] == x && r[k + 1] == y;
      }
      forall i, j | 0 <= i < j < |es| ensures es[i].person != es[j].person {
        assert es[i] == r[i + 1] && es[j] == r[j + 1];
      }
    }
    if x.person !in Persons(es) && DistinctPersons(es) {
      forall i, j | 0 <= i < j < |r| ensures r[i].person != r[j].person {
        assert r[j] == es[j - 1] && r[j] in es;
        if i > 0 { assert r[i] == es[i - 1]; }
      }
    }
  }

  lemma DistinctSnoc(es: seq<Entry>, x: Entry)
    ensures DistinctPersons(es + [x]) <==> x.person !in Persons(es) && DistinctPersons(es)
  {
    var r := es + [x];
    if DistinctPersons(r) {
      forall y | y in es ensures y.person != x.person {
        var k :| 0 <= k < |es| && es[k] == y;
        assert r[k] == y && r[|es|] == x;
      }
      forall i, j | 0 <= i < j < |es| ensures es[i].person != es[j].person {
        assert es[i] == r[i] && es[j] == r[j];
      }
    }
    if x.person !in Persons(es) && DistinctPersons(es) {
      forall i, j | 0 <= i < j < |r| ensures r[i].person != r[j].person {
        assert r[i] == es[i] && r[i] in es;
        if j < |es| { assert r[j] == es[j]; }
      }
    }
  }

  /** Inserting an entry adds its person. */
  lemma InsertPersons(e: Entry, es: seq<Entry>, side: Side)
    requires SortedBy(es, side)
    ensures Persons(Insert(e, es, side)) == Persons(es) + {e.person}
  {
    var r := Insert(e, es, side);
    forall p ensures p in Persons(r) <==> p in Persons(es) || p == e.person {
      if p in Persons(r) {
        var x :| x in r && x.person == p;
      }
      if p in Persons(es) {
        var x :| x in es && x.person == p;
        assert x in r;
      }
      if p == e.person {
        assert e in r;
      }
    }
  }

  /** Inserting an entry of a new person keeps the persons distinct. */
  lemma {:induction false} InsertDistinct(e: Entry, es: seq<Entry>, side: Side)
    requires SortedBy(es, side)
    requires DistinctPersons(es) && e.person !in Persons(es)
    ensures DistinctPersons(Insert(e, es, side))
  {
    if es == [] {
      DistinctCons(e, []);
    } else if Key(e, side) < Key(es[0], side) {
      DistinctCons(e, es);
    } else {
      var tail := es[1..];
      assert es == [es[0]] + tail;
      DistinctCons(es[0], tail);
      PersonsCons(es[0], tail);
      InsertDistinct(e, tail, side);
      InsertPersons(e, tail, side);
      DistinctCons(es[0], Insert(e, tail, side));
    }
  }

  /** Sorting keeps the persons. */
  lemma SortByPersons(es: seq<Entry>, side: Side)
    ensures Persons(SortBy(es, side)) == Persons(es)
  {
    var r := SortBy(es, side);
    forall p ensures p in Persons(r) <==> p in Persons(es) {
      if p in Persons(r) {
        var x :| x in r && x.person == p;
        assert x in es;
      }
      if p in Persons(es) {
        var x :| x in es && x.person == p;
        assert x in r;
      }
    }
  }

  /** Sorting entries of distinct persons gives entries of distinct persons. */
  lemma {:induction false} SortByDistinct(es: seq<Entry>, side: Side)
    requires DistinctPersons(es)
    ensures DistinctPersons(SortBy(es, side))
  {
    if es != [] {
      var init := es[..|es| - 1];
      var last := es[|es| - 1];
      assert es == init + [last];
      DistinctSnoc(init, last);
      SortByDistinct(init, side);
      SortByPersons(init, side);
      InsertDistinct(last, SortBy(init, side), side);
      assert SortBy(es, side) == Insert(last, SortBy(init, side), side);
    }
  }

  /** Everything `p` pays in the transfers. */
  function Outflow(ts: seq<Transfer>, p: string): real
  {
    if ts == [] then 0.0
    else Outflow(ts[..|ts| - 1], p) + (if ts[|ts| - 1].debtor == p then ts[|ts| - 1].amount else 0.0)
  }

  /** Everything `p` receives in the transfers. */
  function Inflow(ts: seq<Transfer>, p: string): real
  {
    if ts == [] then 0.0
    else Inflow(ts[..|ts| - 1], p) + (if ts[|ts| - 1].creditor == p then ts[|ts| - 1].amount else 0.0)
  }

  lemma FlowSnoc(ts: seq<Transfer>, t: Transfer, p: string)
    ensures Outflow(ts + [t], p) == Outflow(ts, p) + (if t.debtor == p then t.amount else 0.0)
    ensures Inflow(ts + [t], p) == Inflow(ts, p) + (if t.creditor == p then t.amount else 0.0)
  {
    assert (ts + [t])[..|ts|] == ts;
  }

  function Abs(x: real): real { if x < 0.0 then -x else x }

  function Min(x: real, y: real): real { if x <= y then x else y }

  /** Every transfer moves at least a cent from someone in `owes` to someone in `gets`. */
  predicate TransfersValid(ts: seq<Transfer>, owes: seq<Entry>, gets: seq<Entry>) {
    forall k :: 0 <= k < |ts| ==>
      ts[k].amount >= 0.01 && ts[k].debtor in Persons(owes) && ts[k].creditor in Persons(gets)
  }

  /** Each debtor's current balance is the starting one plus what they have
      paid, and lies between the starting balance and 0. */
  predicate DebtsTrack(owes: seq<Entry>, debts: seq<Entry>, ts: seq<Transfer>) {
    |debts| == |owes|
    && forall k :: 0 <= k < |owes| ==>
      debts[k].person == owes[k].person
      && debts[k].balance == owes[k].balance + Outflow(ts, owes[k].person)
      && owes[k].balance <= debts[k].balance <= 0.0
  }

  /** Each creditor's current balance is the starting one minus what they
      have received, and lies between 0 and the starting balance. */
  predicate CreditsTrack(gets: seq<Entry>, credits: seq<Entry>, ts: seq<Transfer>) {
    |credits| == |gets|
    && forall k :: 0 <= k < |gets| ==>
      credits[k].person == gets[k].person
      && credits[k].balance == gets[k].balance - Inflow(ts, gets[k].person)
      && 0.0 <= credits[k].balance <= gets[k].balance
  }

  /** Within a cent of 0: `abs(b) < 0.01`. */
  predicate NearZero(x: real) {
    -0.01 < x < 0.01
  }

  /** Everyone before `i` is within a cent of 0, the one at `i` (if any) is
      still at least a cent away, and everyone after `i` is untouched. */
  predicate Cursor(start: seq<Entry>, now: seq<Entry>, i: int) {
    |now| == |start| && 0 <= i <= |start|
    && (forall k :: 0 <= k < i ==> NearZero(now[k].balance))
    && (i < |start| ==> !NearZero(now[i].balance))
    && (forall k :: i < k < |start| ==> now[k] == start[k])
  }

  /** Appending a valid transfer keeps the transfers valid. */
  lemma TransfersStep(ts: seq<Transfer>, owes: seq<Entry>, gets: seq<Entry>, t: Transfer)
    requires TransfersValid(ts, owes, gets)
    requires t.amount >= 0.01 && t.debtor in Persons(owes) && t.creditor in Persons(gets)
    ensures TransfersValid(ts + [t], owes, gets)
  {
  }

  /** Updating the entry at the cursor, then moving past it once it is
      within a cent of 0, keeps the cursor's meaning. */
  lemma CursorStep(start: seq<Entry>, now: seq<Entry>, i: int, e: Entry)
    requires Cursor(start, now, i) && i < |start|
    requires forall k :: 0 <= k < |start| ==> !NearZero(start[k].balance)
    ensures Cursor(start, now[i := e], if NearZero(e.balance) then i + 1 else i)
  {
  }

  /** Paying `t` from debtor `i` reduces exactly that debtor's debt. */
  lemma DebtsStep(owes: seq<Entry>, debts: seq<Entry>, ts: seq<Transfer>, i: nat, t: Transfer)
    requires DebtsTrack(owes, debts, ts) && DistinctPersons(owes)
    requires i < |owes| && t.debtor == owes[i].person
    requires 0.0 <= t.amount <= -debts[i].balance
    ensures DebtsTrack(owes, debts[i := Entry(owes[i].person, debts[i].balance + t.amount)], ts + [t])
  {
    var debts' := debts[i := Entry(owes[i].person, debts[i].balance + t.amount)];
    forall k | 0 <= k < |owes|
      ensures debts'[k].person == owes[k].person
      ensures debts'[k].balance == owes[k].balance + Outflow(ts + [t], owes[k].person)
      ensures owes[k].balance <= debts'[k].balance <= 0.0
    {
      FlowSnoc(ts, t, owes[k].person);
      if k != i { assert owes[k].person != owes[i].person; }
    }
  }

  /** Paying `t` to creditor `j` reduces exactly that creditor's credit. */
  lemma CreditsStep(gets: seq<Entry>, credits: seq<Entry>, ts: seq<Transfer>, j: nat, t: Transfer)
    requires CreditsTrack(gets, credits, ts) && DistinctPersons(gets)
    requires j < |gets| && t.creditor == gets[j].person
    requires 0.0 <= t.amount <= credits[j].balance
    ensures CreditsTrack(gets, credits[j := Entry(gets[j].person, credits[j].balance - t.amount)], ts + [t])
  {
    var credits' := credits[j := Entry(gets[j].person, credits[j].balance - t.amount)];
    forall k | 0 <= k < |gets|
      ensures credits'[k].person == gets[k].person
      ensures credits'[k].balance == gets[k].balance - Inflow(ts + [t], gets[k].person)
      ensures 0.0 <= credits'[k].balance <= gets[k].balance
    {
      FlowSnoc(ts, t, gets[k].person);
      if k != j { assert gets[k].person != gets[j].person; }
    }
  }

  /** The state of the greedy loop after some iterations: the transfers so
      far are valid, the two lists track what each person has paid and
      received, the cursors `i` and `j` separate the settled people from the
      rest, and there have been at most `i + j` transfers. */
  predicate SettleInv(owes: seq<Entry>, gets: seq<Entry>, ts: seq<Transfer>, debts: seq<Entry>, credits: seq<Entry>, i: int, j: int)
  {
    && TransfersValid(ts, owes, gets)
    && DebtsTrack(owes, debts, ts) && CreditsTrack(gets, credits, ts)
    && Cursor(owes, debts, i) && Cursor(gets, credits, j)
    && |ts| <= i + j
    && (i == |owes| && j == |gets| && ts != [] ==> |ts| < i + j)
    && (ts == [] <==> i == 0 && j == 0)
    && (ts != [] ==> owes != [] && gets != [])
  }

  /** Before the first iteration: no transfers, both lists as sorted, both
      cursors at the start. */
  lemma SettleStart(owes: seq<Entry>, gets: seq<Entry>)
    requires forall k :: 0 <= k < |owes| ==> OnSide(owes[k].balance, Debtor)
    requires forall k :: 0 <= k < |gets| ==> OnSide(gets[k].balance, Creditor)
    ensures SettleInv(owes, gets, [], owes, gets, 0, 0)
  {
  }

  /** One iteration keeps the transfers valid and both lists tracking them. */
  lemma SettleStepTrack(owes: seq<Entry>, gets: seq<Entry>, ts: seq<Transfer>, debts: seq<Entry>, credits: seq<Entry>, i: int, j: int)
    requires forall k :: 0 <= k < |owes| ==> OnSide(owes[k].balance, Debtor)
    requires forall k :: 0 <= k < |gets| ==> OnSide(gets[k].balance, Creditor)
    requires DistinctPersons(owes) && DistinctPersons(gets)
    requires SettleInv(owes, gets, ts, debts, credits, i, j) && i < |owes| && j < |gets|
    ensures var settle := Min(Abs(debts[i].balance), credits[j].balance);
      var ts' := ts + [Transfer(debts[i].person, credits[j].person, settle)];
      && settle >= 0.01
      && TransfersValid(ts', owes, gets)
      && DebtsTrack(owes, debts[i := Entry(debts[i].person, debts[i].balance + settle)], ts')
      && CreditsTrack(gets, credits[j := Entry(credits[j].person, credits[j].balance - settle)], ts')
  {
    var owe := debts[i];
    var get := credits[j];
    var settle := Min(Abs(owe.balance), get.balance);
    var t := Transfer(owe.person, get.person, settle);
    assert owe.balance <= -0.01 && get.balance >= 0.01;
    assert owe.person in Persons(owes) by { assert owes[i] in owes; }
    assert get.person in Persons(gets) by { assert gets[j] in gets; }
    DebtsStep(owes, debts, ts, i, t);
    CreditsStep(gets, credits, ts, j, t);
    TransfersStep(ts, owes, gets, t);
  }

  /** One iteration moves at least one cursor past a person now within a
      cent of 0, and keeps the counting facts. */
  lemma SettleStepCursor(owes: seq<Entry>, gets: seq<Entry>, ts: seq<Transfer>, debts: seq<Entry>, credits: seq<Entry>, i: int, j: int)
    requires forall k :: 0 <= k < |owes| ==> OnSide(owes[k].balance, Debtor)
    requires forall k :: 0 <= k < |gets| ==> OnSide(gets[k].balance, Creditor)
    requires SettleInv(owes, gets, ts, debts, credits, i, j) && i < |owes| && j < |gets|
    ensures var settle := Min(Abs(debts[i].balance), credits[j].balance);
      var ts' := ts + [Transfer(debts[i].person, credits[j].person, settle)];
      var debts' := debts[i := Entry(debts[i].person, debts[i].balance + settle)];
      var credits' := credits[j := Entry(credits[j].person, credits[j].balance - settle)];
      var i' := if NearZero(debts'[i].balance) then i + 1 else i;
      var j' := if NearZero(credits'[j].balance) then j + 1 else j;
      && Cursor(owes, debts', i') && Cursor(gets, credits', j')
      && i + j < i' + j'
      && |ts'| <= i' + j'
      && (i' == |owes| && j' == |gets| ==> |ts'| < i' + j')
      && owes != [] && gets != []
  {
    var owe := debts[i];
    var get := credits[j];
    var settle := Min(Abs(owe.balance), get.balance);
    assert owe.balance <= -0.01 && get.balance >= 0.01;
    CursorStep(owes, debts, i, Entry(owe.person, owe.balance + settle));
    CursorStep(gets, credits, j, Entry(get.person, get.balance - settle));
    assert NearZero(owe.balance + settle) || NearZero(get.balance - settle);
  }

  /** One iteration of the greedy loop, from the state `ts, debts, credits,
      i, j` to the state `ts', debts', credits', i', j'` it computes, keeps
      `SettleInv` and moves at least one cursor. */
  lemma SettleStep(owes: seq<Entry>, gets: seq<Entry>,
                   ts: seq<Transfer>, debts: seq<Entry>, credits: seq<Entry>, i: int, j: int,
                   ts': seq<Transfer>, debts': seq<Entry>, credits': seq<Entry>, i': int, j': int)
    requires forall k :: 0 <= k < |owes| ==> OnSide(owes[k].balance, Debtor)
    requires forall k :: 0 <= k < |gets| ==> OnSide(gets[k].balance, Creditor)
    requires DistinctPersons(owes) && DistinctPersons(gets)
    requires SettleInv(owes, gets, ts, debts, credits, i, j) && i < |owes| && j < |gets|
    requires var settle := Min(Abs(debts[i].balance), credits[j].balance);
      && ts' == ts + [Transfer(debts[i].person, credits[j].person, settle)]
      && debts' == debts[i := Entry(debts[i].person, debts[i].balance + settle)]
      && credits' == credits[j := Entry(credits[j].person, credits[j].balance - settle)]
    requires i' == if NearZero(debts'[i].balance) then i + 1 else i
    requires j' == if NearZero(credits'[j].balance) then j + 1 else j
    ensures SettleInv(owes, gets, ts', debts', credits', i', j')
    ensures i + j < i' + j'
  {
    SettleStepTrack(owes, gets, ts, debts, credits, i, j);
    SettleStepCursor(owes, gets, ts, debts, credits, i, j);
  }

  /** When a cursor has run off its list, everyone on that side is within a
      cent of 0, and the transfer count is below the number of people. */
  lemma SettleEnds(owes: seq<Entry>, gets: seq<Entry>, ts: seq<Transfer>, debts: seq<Entry>, credits: seq<Entry>, i: int, j: int)
    requires SettleInv(owes, gets, ts, debts, credits, i, j)
    requires i == |owes| || j == |gets|
    ensures (forall k :: 0 <= k < |debts| ==> NearZero(debts[k].balance))
         || (forall k :: 0 <= k < |credits| ==> NearZero(credits[k].balance))
    ensures ts == [] <==> owes == [] || gets == []
    ensures ts != [] ==> |ts| < |owes| + |gets|
  {
  }

  /** Every debt is at most 0 and every credit at least 0. */
  predicate Signed(debts: seq<Entry>, credits: seq<Entry>) {
    (forall k :: 0 <= k < |debts| ==> debts[k].balance <= 0.0)
    && (forall k :: 0 <= k < |credits| ==> credits[k].balance >= 0.0)
  }

  /** The payments the greedy loop emits from the state `debts, credits,
      i, j` on: while both cursors are inside their lists, the debtor at `i`
      pays the creditor at `j` the smaller of the debt and the credit, both
      entries are updated, and each cursor moves past an entry now within a
      cent of 0. Each payment moves at least one cursor, so there are no more
      payments than entries left. */
  function Greedy(debts: seq<Entry>, credits: seq<Entry>, i: nat, j: nat): (ts: seq<Transfer>)
    requires i <= |debts| && j <= |credits| && Signed(debts, credits)
    ensures |ts| <= |debts| - i + |credits| - j
    decreases |debts| - i + |credits| - j
  {
    if i == |debts| || j == |credits| then []
    else
      var settle := Min(Abs(debts[i].balance), credits[j].balance);
      var debts' := debts[i := Entry(debts[i].person, debts[i].balance + settle)];
      var credits' := credits[j := Entry(credits[j].person, credits[j].balance - settle)];
      var i' := if NearZero(debts'[i].balance) then i + 1 else i;
      var j' := if NearZero(credits'[j].balance) then j + 1 else j;
      assert i' + j' > i + j;
      [Transfer(debts[i].person, credits[j].person, settle)] + Greedy(debts', credits', i', j')
  }

  /** The greedy loop's progress: the payments `ts` emitted so far, followed
      by what `Greedy` emits from the current state, are the whole of what
      it emits from the start. */
  predicate GreedyInv(owes: seq<Entry>, gets: seq<Entry>, ts: seq<Transfer>, debts: seq<Entry>, credits: seq<Entry>, i: nat, j: nat)
  {
    && Signed(owes, gets) && Signed(debts, credits)
    && i <= |debts| && j <= |credits|
    && ts + Greedy(debts, credits, i, j) == Greedy(owes, gets, 0, 0)
  }

  /** Before the first iteration nothing has been emitted. */
  lemma GreedyStart(owes: seq<Entry>, gets: seq<Entry>)
    requires forall k :: 0 <= k < |owes| ==> OnSide(owes[k].balance, Debtor)
    requires forall k :: 0 <= k < |gets| ==> OnSide(gets[k].balance, Creditor)
    ensures GreedyInv(owes, gets, [], owes, gets, 0, 0)
  {
    assert [] + Greedy(owes, gets, 0, 0) == Greedy(owes, gets, 0, 0);
  }

  /** One iteration, from the state `ts, debts, credits, i, j` to the state
      `ts', debts', credits', i', j'` it computes, emits the first payment
      `Greedy` emits from the old state, and leaves the rest to be emitted. */
  lemma GreedyStep(owes: seq<Entry>, gets: seq<Entry>,
                   ts: seq<Transfer>, debts: seq<Entry>, credits: seq<Entry>, i: nat, j: nat,
                   ts': seq<Transfer>, debts': seq<Entry>, credits': seq<Entry>, i': nat, j': nat)
    requires GreedyInv(owes, gets, ts, debts, credits, i, j) && i < |debts| && j < |credits|
    requires var settle := Min(Abs(debts[i].balance), credits[j].balance);
      && ts' == ts + [Transfer(debts[i].person, credits[j].person, settle)]
      && debts' == debts[i := Entry(debts[i].person, debts[i].balance + settle)]
      && credits' == credits[j := Entry(credits[j].person, credits[j].balance - settle)]
    requires i' == if NearZero(debts'[i].balance) then i + 1 else i
    requires j' == if NearZero(credits'[j].balance) then j + 1 else j
    ensures GreedyInv(owes, gets, ts', debts', credits', i', j')
  {
    var t := Transfer(debts[i].person, credits[j].person, Min(Abs(debts[i].balance), credits[j].balance));
    GreedyUnfold(debts, credits, i, j, debts', credits', i', j');
    assert ts' + Greedy(debts', credits', i', j') == ts + ([t] + Greedy(debts', credits', i', j'));
  }

  /** `Greedy` from a state is its first payment followed by `Greedy` from
      the state after it. */
  lemma GreedyUnfold(debts: seq<Entry>, credits: seq<Entry>, i: nat, j: nat,
                     debts': seq<Entry>, credits': seq<Entry>, i': nat, j': nat)
    requires i < |debts| && j < |credits| && Signed(debts, credits)
    requires var settle := Min(Abs(debts[i].balance), credits[j].balance);
      && debts' == debts[i := Entry(debts[i].person, debts[i].balance + settle)]
      && credits' == credits[j := Entry(credits[j].person, credits[j].balance - settle)]
    requires i' == if NearZero(debts'[i].balance) then i + 1 else i
    requires j' == if NearZero(credits'[j].balance) then j + 1 else j
    ensures i' <= |debts'| && j' <= |credits'| && Signed(debts', credits')
    ensures Greedy(debts, credits, i, j)
      == [Transfer(debts[i].person, credits[j].person, Min(Abs(debts[i].balance), credits[j].balance))]
         + Greedy(debts', credits', i', j')
  {
  }

  /** Once a cursor has run off its list, everything has been emitted. */
  lemma GreedyEnds(owes: seq<Entry>, gets: seq<Entry>, ts: seq<Transfer>, debts: seq<Entry>, credits: seq<Entry>, i: nat, j: nat)
    requires GreedyInv(owes, gets, ts, debts, credits, i, j)
    requires i == |debts| || j == |credits|
    ensures Signed(owes, gets) && ts == Greedy(owes, gets, 0, 0)
  {
    assert ts + [] == ts;
  }

  /** A list of entries of distinct persons has as many persons as entries. */
  lemma {:induction false} DistinctPersonsCount(es: seq<Entry>)
    requires DistinctPersons(es)
    ensures |Persons(es)| == |es|
  {
    if es != [] {
      var init := es[..|es| - 1];
      var last := es[|es| - 1];
      assert es == init + [last];
      DistinctSnoc(init, last);
      DistinctPersonsCount(init);
      PersonsSnoc(init, last);
    }
  }

}

=== FILE: names.dfy ===
/** `parse_names` (src/utils.py, and its identical copy in app.py): a
    comma-separated roster string becomes a sorted list of distinct, trimmed,
    non-empty names. */
module Names {
  import opened Wrappers
  import Text

  /** Every later name is greater than every earlier one: sorted, no repeats. */
  predicate StrictlySorted(xs: seq<string>) {
    forall i, j :: 0 <= i < j < |xs| ==> Text.Less(xs[i], xs[j])
  }

  /** Adds `x` to a strictly sorted list, keeping it strictly sorted. */
  function InsertName(x: string, ys: seq<string>): (r: seq<string>)
    requires StrictlySorted(ys)
    ensures StrictlySorted(r)
    ensures forall z :: z in r <==> z == x || z in ys
    ensures |r| <= |ys| + 1
  {
    if ys == [] then [x]
    else if x == ys[0] then ys
    else if Text.Less(x, ys[0]) then
      assert forall k :: 0 < k < |ys| ==> Text.Less(x, ys[k]) by {
        forall k | 0 < k < |ys| ensures Text.Less(x, ys[k]) {
          Text.LessTransitive(x, ys[0], ys[k]);
        }
      }
      [x] + ys
    else
      var rest := InsertName(x, ys[1..]);
      Text.LessTotal(x, ys[0]);
      assert forall z :: z in rest ==> Text.Less(ys[0], z);
      [ys[0]] + rest
  }

  /** `sorted(set(xs))`: the distinct elements of `xs` in increasing order. */
  function SortedDistinct(xs: seq<string>): (r: seq<string>)
    ensures StrictlySorted(r)
    ensures forall z :: z in r <==> z in xs
    ensures |r| <= |xs|
  {
    if xs == [] then [] else InsertName(xs[0], SortedDistinct(xs[1..]))
  }

  /** `[name.strip() for name in pieces if name.strip()]`. */
  function Cleaned(pieces: seq<string>): (r: seq<string>)
    ensures forall x :: x in r ==> x != "" && Text.Trim(x) == x
    ensures |r| <= |pieces|
  {
    if pieces == [] then []
    else
      var name := Text.Trim(pieces[0]);
      Text.TrimIdempotent(pieces[0]);
      if name != "" then [name] + Cleaned(pieces[1..]) else Cleaned(pieces[1..])
  }

  /** A name survives the strip-and-filter step exactly when it is the
      non-empty trim of one of the pieces. */
  lemma {:induction false} CleanedMembers(pieces: seq<string>)
    ensures forall x :: x in Cleaned(pieces) <==>
      exists p :: p in pieces && x == Text.Trim(p) && x != ""
  {
    if pieces != [] {
      var tail := pieces[1..];
      CleanedMembers(tail);
      assert pieces == [pieces[0]] + tail;
      assert forall p :: p in pieces <==> p == pieces[0] || p in tail;
    }
  }

  /** `parse_names(name_string)`; `None` stands for a value that is not a `str`.
      The result is strictly sorted, its elements are trimmed and non-empty,
      and a non-string or blank input gives []. */
  function ParseNames(input: Option<string>): (names: seq<string>)
    ensures StrictlySorted(names)
    ensures forall x :: x in names ==> x != "" && Text.Trim(x) == x
    ensures input.None? || Text.Trim(input.value) == "" ==> names == []
    ensures input.Some? ==> |names| <= |Text.Split(input.value)|
  {
    if input.None? || Text.Trim(input.value) == "" then []
    else SortedDistinct(Cleaned(Text.Split(input.value)))
  }

  /** A name is in the parsed roster exactly when it is the trim of a
      non-blank comma-separated piece of the input. */
  lemma ParseNamesMembers(input: string)
    ensures forall x :: x in ParseNames(Some(input)) <==>
      exists p :: p in Text.Split(input) && x == Text.Trim(p) && x != ""
  {
    var pieces := Text.Split(input);
    CleanedMembers(pieces);
    if Text.Trim(input) == "" {
      forall p | p in pieces ensures Text.Trim(p) == "" {
        assert forall i :: 0 <= i < |p| ==> p[i] in p;
      }
    }
  }

  /** A strictly sorted list is its own `sorted(set(...))`. */
  lemma {:induction false} SortedDistinctOfSorted(xs: seq<string>)
    requires StrictlySorted(xs)
    ensures SortedDistinct(xs) == xs
  {
    if xs != [] {
      SortedDistinctOfSorted(xs[1..]);
      if |xs| > 1 {
        assert Text.Less(xs[0], xs[1]);
        Text.LessIrreflexive(xs[0]);
      }
    }
  }

  /** Trimmed non-empty names survive the strip-and-filter step unchanged. */
  lemma {:induction false} CleanedOfClean(xs: seq<string>)
    requires forall x :: x in xs ==> x != "" && Text.Trim(x) == x
    ensures Cleaned(xs) == xs
  {
    if xs != [] {
      var tail := xs[1..];
      assert xs[0] in xs;
      forall x | x in tail ensures x != "" && Text.Trim(x) == x {
        assert x in xs;
      }
      CleanedOfClean(tail);
      assert xs == [xs[0]] + tail;
    }
  }

  /** Joining a parsed roster with commas and parsing it again gives the same
      roster: parse_names reaches a fixed point. */
  lemma ParseNamesIdempotent(input: Option<string>)
    ensures ParseNames(Some(Text.Join(ParseNames(input)))) == ParseNames(input)
  {
    var names := ParseNames(input);
    var joined := Text.Join(names);
    if names != [] {
      NamesAreCommaFree(input);
      assert names[0] in names;
      JoinStartsWith(names);
      assert !Text.IsSpace(joined[0]);
      Text.SplitJoin(names);
      CleanedOfClean(names);
      SortedDistinctOfSorted(names);
      assert ParseNames(Some(joined)) == SortedDistinct(Cleaned(Text.Split(joined)));
    }
  }

  /** No parsed name contains the separator. */
  lemma NamesAreCommaFree(input: Option<string>)
    ensures forall x :: x in ParseNames(input) ==> ',' !in x
  {
    if input.Some? {
      ParseNamesMembers(input.value);
      forall x | x in ParseNames(input) ensures ',' !in x {
        var p :| p in Text.Split(input.value) && x == Text.Trim(p) && x != "";
      }
    }
  }

  /** The joined roster starts with the first name's first character. */
  lemma JoinStartsWith(names: seq<string>)
    requires |names| > 0 && names[0] != ""
    ensures |Text.Join(names)| > 0 && Text.Join(names)[0] == names[0][0]
  {
  }

}

=== FILE: participants.dfy ===
/** get_participant_data: turns one expense row into `(total_heads, shares)`.
    The current version (src/logic.py) reads the list-valued Participants cell
    and then the numbered slots; the older one (app.py) reads only the slots. */
module Participants {
  import opened Wrappers
  import opened Ledger
  import Text

  /** Shares from the list encoding: each entry that is a non-empty str is one
      head under its stripped name; other entries add nothing. Note that a
      whitespace-only str is non-empty, so it adds a head named "". */
  function ListShares(entries: seq<Option<string>>): seq<Share>
  {
    if entries == [] then []
    else
      var last := entries[|entries| - 1];
      ListShares(entries[..|entries| - 1])
      + (if last.Some? && last.value != "" then [Share(Text.Trim(last.value), 1)] else [])
  }

  /** A slot whose name cell is present, not NaN and not blank once stripped. */
  predicate Named(slot: Slot) {
    slot.name.Some? && Text.Trim(slot.name.value) != ""
  }

  /** The count a named slot contributes: its Members value, 1 without the column. */
  function MemberCount(m: Members): int
    requires !m.NotInteger?
  {
    if m.Count? then m.n else 1
  }

  /** Slots 1..maxParticipants that exist in the row. */
  function Visible(row: Row, maxParticipants: nat): seq<Slot>
  {
    row.slots[..if maxParticipants < |row.slots| then maxParticipants else |row.slots|]
  }

  /** Shares from the numbered slots, in slot order, or None when int() raises
      on the Members cell of some named slot. */
  function SlotShares(slots: seq<Slot>): Option<seq<Share>>
  {
    if slots == [] then Some([])
    else
      var last := slots[|slots| - 1];
      match SlotShares(slots[..|slots| - 1])
      case None => None
      case Some(acc) =>
        if !Named(last) then Some(acc)
        else if last.members.NotInteger? then None
        else Some(acc + [Share(Text.Trim(last.name.value), MemberCount(last.members))])
  }

  /** The participant list of a row: the list-encoding shares (current version
      only) followed by the slot shares, or None when the conversion of a
      Members cell raises. */
  function Shares(row: Row, maxParticipants: nat, n: Normaliser): Option<seq<Share>>
  {
    var listPart := if n == ListAndSlots && row.participants.Some? then ListShares(row.participants.value) else [];
    match SlotShares(Visible(row, maxParticipants))
    case None => None
    case Some(slotPart) => Some(listPart + slotPart)
  }

  /** Once int() has raised on a prefix of the slots, the whole row fails. */
  lemma {:induction false} SlotFailurePersists(slots: seq<Slot>, k: nat)
    requires k <= |slots| && SlotShares(slots[..k]).None?
    ensures SlotShares(slots).None?
    decreases |slots| - k
  {
    if k < |slots| {
      assert slots[..k + 1][..k] == slots[..k];
      SlotFailurePersists(slots, k + 1);
    } else {
      assert slots[..k] == slots;
    }
  }

  /** Reading slot `i + 1` (index `i`) after slots 1..i: unnamed slots and
      slots past the row's columns add nothing, a named slot whose Members
      value int() rejects fails the row, and any other named slot adds its
      share. */
  lemma SlotStep(row: Row, i: nat, involved: seq<Share>)
    requires SlotShares(Visible(row, i)) == Some(involved)
    ensures i >= |row.slots| || !Named(row.slots[i]) ==> SlotShares(Visible(row, i + 1)) == Some(involved)
    ensures i < |row.slots| && Named(row.slots[i]) && row.slots[i].members.NotInteger? ==>
      SlotShares(Visible(row, i + 1)).None?
    ensures i < |row.slots| && Named(row.slots[i]) && !row.slots[i].members.NotInteger? ==>
      SlotShares(Visible(row, i + 1)) == Some(involved + [Share(Text.Trim(row.slots[i].name.value), MemberCount(row.slots[i].members))])
  {
    if i < |row.slots| {
      var v := Visible(row, i + 1);
      assert v[..|v| - 1] == Visible(row, i);
    } else {
      assert Visible(row, i + 1) == Visible(row, i);
    }
  }

  /** A failure among slots 1..k fails every longer run of slots. */
  lemma SlotFailureAt(row: Row, k: nat, maxParticipants: nat)
    requires k <= maxParticipants && SlotShares(Visible(row, k)).None?
    ensures SlotShares(Visible(row, maxParticipants)).None?
  {
    var v := Visible(row, maxParticipants);
    if k <= |row.slots| {
      assert v[..k] == Visible(row, k);
      SlotFailurePersists(v, k);
    } else {
      assert v == Visible(row, k);
    }
  }

  /** get_participant_data of app.py: the numbered slots only.
      On success, total_heads is the sum of the returned counts. */
  method GetSlotParticipantData(row: Row, maxParticipants: nat) returns (r: Option<Normalised>)
    ensures r.None? <==> SlotShares(Visible(row, maxParticipants)).None?
    ensures r.Some? ==> r.value.shares == SlotShares(Visible(row, maxParticipants)).value
    ensures r.Some? ==> r.value.totalHeads == SumCounts(r.value.shares)
  {
    var totalHeads := 0;
    var involved: seq<Share> := [];
    for i := 0 to maxParticipants
      invariant SlotShares(Visible(row, i)) == Some(involved)
      invariant totalHeads == SumCounts(involved)
    {
      SlotStep(row, i, involved);
      if i < |row.slots| && Named(row.slots[i]) {
        var slot := row.slots[i];
        if slot.members.NotInteger? {
          SlotFailureAt(row, i + 1, maxParticipants);
          return None;
        }
        var count := MemberCount(slot.members);
        totalHeads := totalHeads + count;
        involved := involved + [Share(Text.Trim(slot.name.value), count)];
      }
    }
    return Some(Normalised(totalHeads, involved));
  }

  /** Sum of counts distributes over concatenation. */
  lemma {:induction false} SumCountsAppend(a: seq<Share>, b: seq<Share>)
    ensures SumCounts(a + b) == SumCounts(a) + SumCounts(b)
    decreases |b|
  {
    if b != [] {
      assert (a + b)[..|a + b| - 1] == a + b[..|b| - 1];
      SumCountsAppend(a, b[..|b| - 1]);
    } else {
      assert a + b == a;
    }
  }

  /** Reading entry `k` of the list encoding after entries 0..k-1. */
  lemma ListStep(entries: seq<Option<string>>, k: nat)
    requires k < |entries|
    ensures ListShares(entries[..k + 1]) == ListShares(entries[..k])
      + (if entries[k].Some? && entries[k].value != "" then [Share(Text.Trim(entries[k].value), 1)] else [])
  {
    assert entries[..k + 1][..k] == entries[..k];
  }

  /** get_participant_data of src/logic.py: the list encoding, then the numbered
      slots, added together without merging repeated names. On success,
      total_heads is the sum of the returned counts. */
  method GetParticipantData(row: Row, maxParticipants: nat) returns (r: Option<Normalised>)
    ensures r.None? <==> Shares(row, maxParticipants, ListAndSlots).None?
    ensures r.Some? ==> r.value.shares == Shares(row, maxParticipants, ListAndSlots).value
    ensures r.Some? ==> r.value.totalHeads == SumCounts(r.value.shares)
  {
    var totalHeads := 0;
    var involved: seq<Share> := [];
    if row.participants.Some? {
      var entries := row.participants.value;
      for k := 0 to |entries|
        invariant involved == ListShares(entries[..k])
        invariant totalHeads == SumCounts(involved)
      {
        ListStep(entries, k);
        var p := entries[k];
        if p.Some? && p.value != "" {
          totalHeads := totalHeads + 1;
          involved := involved + [Share(Text.Trim(p.value), 1)];
        }
      }
      assert entries[..|entries|] == entries;
    }
    var slots := GetSlotParticipantData(row, maxParticipants);
    if slots.None? {
      return None;
    }
    SumCountsAppend(involved, slots.value.shares);
    r := Some(Normalised(totalHeads + slots.value.totalHeads, involved + slots.value.shares));
  }

  /** Dispatches to the version of get_participant_data the ledger is read with. */
  method ParticipantData(row: Row, maxParticipants: nat, n: Normaliser) returns (r: Option<Normalised>)
    ensures r.None? <==> Shares(row, maxParticipants, n).None?
    ensures r.Some? ==> r.value.shares == Shares(row, maxParticipants, n).value
    ensures r.Some? ==> r.value.totalHeads == SumCounts(r.value.shares)
  {
    if n == ListAndSlots {
      r := GetParticipantData(row, maxParticipants);
    } else {
      r := GetSlotParticipantData(row, maxParticipants);
    }
  }

  /** The list encoding yields exactly one share `(strip(s), 1)` per entry that
      is a non-empty str, and nothing for other entries. */
  lemma {:induction false} ListSharesMembers(entries: seq<Option<string>>)
    ensures forall sh :: sh in ListShares(entries) <==>
      exists e :: e in entries && e.Some? && e.value != "" && sh == Share(Text.Trim(e.value), 1)
    ensures |ListShares(entries)| <= |entries|
  {
    if entries != [] {
      var init := entries[..|entries| - 1];
      ListSharesMembers(init);
      assert forall e :: e in entries <==> e in init || e == entries[|entries| - 1];
    }
  }

  /** A row's slot part fails exactly when some named slot has a Members value
      int() rejects; the Members cell of an unnamed slot is never converted. */
  lemma {:induction false} SlotSharesFail(slots: seq<Slot>)
    ensures SlotShares(slots).None? <==> exists s :: s in slots && Named(s) && s.members.NotInteger?
  {
    if slots != [] {
      var init := slots[..|slots| - 1];
      SlotSharesFail(init);
      assert forall s :: s in slots <==> s in init || s == slots[|slots| - 1];
    }
  }

  /** The slot part holds one share `(strip(name), count)` per named slot. */
  lemma {:induction false} SlotSharesMembers(slots: seq<Slot>)
    requires SlotShares(slots).Some?
    ensures forall sh :: sh in SlotShares(slots).value <==>
      exists s :: s in slots && Named(s) && !s.members.NotInteger?
        && sh == Share(Text.Trim(s.name.value), MemberCount(s.members))
  {
    if slots != [] {
      var init := slots[..|slots| - 1];
      SlotSharesMembers(init);
      assert forall s :: s in slots <==> s in init || s == slots[|slots| - 1];
    }
  }

  /** Every share name of the slot part is non-empty and already stripped. */
  lemma SlotSharesTrimmed(slots: seq<Slot>)
    requires SlotShares(slots).Some?
    ensures forall sh :: sh in SlotShares(slots).value ==> sh.name != "" && Text.Trim(sh.name) == sh.name
  {
    SlotSharesMembers(slots);
    forall sh | sh in SlotShares(slots).value ensures sh.name != "" && Text.Trim(sh.name) == sh.name {
      var s :| s in slots && Named(s) && !s.members.NotInteger?
        && sh == Share(Text.Trim(s.name.value), MemberCount(s.members));
      Text.TrimIdempotent(s.name.value);
    }
  }

  /** On success, the row's total heads is the sum of the counts of its shares,
      every share name is stripped, list-encoding shares come first with count 1,
      and the slot shares follow. */
  lemma SharesShape(row: Row, maxParticipants: nat, n: Normaliser)
    requires Shares(row, maxParticipants, n).Some?
    ensures var shares := Shares(row, maxParticipants, n).value;
      var listPart := if n == ListAndSlots && row.participants.Some? then ListShares(row.participants.value) else [];
      && shares == listPart + SlotShares(Visible(row, maxParticipants)).value
      && SumCounts(shares) == |listPart| + SumCounts(SlotShares(Visible(row, maxParticipants)).value)
      && (forall sh :: sh in listPart ==> sh.count == 1)
      && (forall sh :: sh in shares ==> Text.Trim(sh.name) == sh.name)
  {
    var listPart := if n == ListAndSlots && row.participants.Some? then ListShares(row.participants.value) else [];
    var slotPart := SlotShares(Visible(row, maxParticipants)).value;
    SlotSharesTrimmed(Visible(row, maxParticipants));
    if n == ListAndSlots && row.participants.Some? {
      ListSharesMembers(row.participants.value);
      forall sh | sh in listPart ensures sh.count == 1 && Text.Trim(sh.name) == sh.name {
        var e :| e in row.participants.value && e.Some? && e.value != "" && sh == Share(Text.Trim(e.value), 1);
        Text.TrimIdempotent(e.value);
      }
    }
    UnitCounts(listPart);
    SumCountsAppend(listPart, slotPart);
  }

  /** Shares of count 1 add up to their number. */
  lemma {:induction false} UnitCounts(shares: seq<Share>)
    requires forall sh :: sh in shares ==> sh.count == 1
    ensures SumCounts(shares) == |shares|
  {
    if shares != [] {
      assert forall sh :: sh in shares[..|shares| - 1] ==> sh in shares;
      UnitCounts(shares[..|shares| - 1]);
    }
  }

  /** How many entries of the list encoding are non-empty strs that strip to `p`. */
  function ListHeads(entries: seq<Option<string>>, p: string): nat
  {
    if entries == [] then 0
    else
      var e := entries[|entries| - 1];
      ListHeads(entries[..|entries| - 1], p) + (if e.Some? && e.value != "" && Text.Trim(e.value) == p then 1 else 0)
  }

  /** The Members counts of the named slots whose name strips to `p`, added up. */
  function SlotHeads(slots: seq<Slot>, p: string): int
  {
    if slots == [] then 0
    else
      var s := slots[|slots| - 1];
      SlotHeads(slots[..|slots| - 1], p)
      + (if Named(s) && !s.members.NotInteger? && Text.Trim(s.name.value) == p then MemberCount(s.members) else 0)
  }

  /** Counts of the shares naming `p` add up over a concatenation. */
  lemma {:induction false} CountForAppend(a: seq<Share>, b: seq<Share>, p: string)
    ensures CountFor(a + b, p) == CountFor(a, p) + CountFor(b, p)
    decreases |b|
  {
    if b != [] {
      assert (a + b)[..|a + b| - 1] == a + b[..|b| - 1];
      CountForAppend(a, b[..|b| - 1], p);
    } else {
      assert a + b == a;
    }
  }

  /** Repeated names are not merged: a person's heads from the list encoding
      are the number of entries naming them. */
  lemma {:induction false} ListSharesCount(entries: seq<Option<string>>, p: string)
    ensures CountFor(ListShares(entries), p) == ListHeads(entries, p)
  {
    if entries != [] {
      var init := entries[..|entries| - 1];
      var e := entries[|entries| - 1];
      ListSharesCount(init, p);
      var extra := if e.Some? && e.value != "" then [Share(Text.Trim(e.value), 1)] else [];
      CountForAppend(ListShares(init), extra, p);
      assert CountFor(extra, p) == if e.Some? && e.value != "" && Text.Trim(e.value) == p then 1 else 0 by {
        if extra != [] { assert extra[..0] == []; }
      }
    }
  }

  /** Repeated names are not merged: a person's heads from the numbered
      slots are the Members counts of all the slots naming them. */
  lemma {:induction false} SlotSharesCount(slots: seq<Slot>, p: string)
    requires SlotShares(slots).Some?
    ensures CountFor(SlotShares(slots).value, p) == SlotHeads(slots, p)
  {
    if slots != [] {
      var init := slots[..|slots| - 1];
      var s := slots[|slots| - 1];
      SlotSharesCount(init, p);
      var extra := if Named(s) then [Share(Text.Trim(s.name.value), MemberCount(s.members))] else [];
      assert SlotShares(slots).value == SlotShares(init).value + extra;
      CountForAppend(SlotShares(init).value, extra, p);
      assert CountFor(extra, p) == if Named(s) && Text.Trim(s.name.value) == p then MemberCount(s.members) else 0 by {
        if extra != [] { assert extra[..0] == []; }
      }
    }
  }

  /** A person's heads in a row: one per list entry naming them (current
      version only) plus the Members counts of the slots naming them. */
  lemma SharesCount(row: Row, maxParticipants: nat, n: Normaliser, p: string)
    requires Shares(row, maxParticipants, n).Some?
    ensures CountFor(Shares(row, maxParticipants, n).value, p)
      == (if n == ListAndSlots && row.participants.Some? then ListHeads(row.participants.value, p) else 0)
         + SlotHeads(Visible(row, maxParticipants), p)
  {
    var listPart := if n == ListAndSlots && row.participants.Some? then ListShares(row.participants.value) else [];
    var slotPart := SlotShares(Visible(row, maxParticipants)).value;
    if n == ListAndSlots && row.participants.Some? {
      ListSharesCount(row.participants.value, p);
    }
    SlotSharesCount(Visible(row, maxParticipants), p);
    CountForAppend(listPart, slotPart, p);
  }

}

=== FILE: settlement.dfy ===
/** The settlement half of calculate_settlement: from the final balances to
    the list of suggested payments. People more than a cent in debt are
    sorted most-indebted first, people more than a cent in credit are sorted
    largest-credit first, and a two-cursor greedy loop matches them. */
module Settlement {
  import opened Ledger
  import opened Balances
  import opened Matching

  /** The greedy loop of calculate_settlement over `owes` (balances below
      -0.01, most negative first) and `gets` (balances above 0.01, largest
      first). It also returns the two lists as the loop leaves them.
      - every transfer moves at least a cent, from someone in `owes` to
        someone in `gets`;
      - each debtor's remaining balance is the starting one plus what they
        paid, and lies between the starting balance and 0: nobody pays more
        than they owe; likewise each creditor receives at most their credit;
      - when the loop stops, every debtor or every creditor is within a cent
        of 0;
      - there are no transfers exactly when one list is empty, and fewer
        transfers than people in the two lists;
      - the transfers are exactly the ones `Greedy` describes: each is the
        smaller of the debt and the credit at the two cursors. */
  method Settle(owes: seq<Entry>, gets: seq<Entry>) returns (ts: seq<Transfer>, debts: seq<Entry>, credits: seq<Entry>)
    requires forall k :: 0 <= k < |owes| ==> OnSide(owes[k].balance, Debtor)
    requires forall k :: 0 <= k < |gets| ==> OnSide(gets[k].balance, Creditor)
    requires DistinctPersons(owes) && DistinctPersons(gets)
    ensures TransfersValid(ts, owes, gets)
    ensures DebtsTrack(owes, debts, ts) && CreditsTrack(gets, credits, ts)
    ensures (forall k :: 0 <= k < |debts| ==> NearZero(debts[k].balance))
         || (forall k :: 0 <= k < |credits| ==> NearZero(credits[k].balance))
    ensures ts == [] <==> owes == [] || gets == []
    ensures ts != [] ==> |ts| < |owes| + |gets|
    ensures Signed(owes, gets) && ts == Greedy(owes, gets, 0, 0)
  {
    ts := [];
    debts := owes;
    credits := gets;
    var i: nat, j: nat := 0, 0;
    SettleStart(owes, gets);
    GreedyStart(owes, gets);
    while i < |debts| && j < |credits|
      invariant SettleInv(owes, gets, ts, debts, credits, i, j)
      invariant GreedyInv(owes, gets, ts, debts, credits, i, j)
      decreases |owes| - i + |gets| - j
    {
      var owe := debts[i];
      var get := credits[j];
      var settle := Min(Abs(owe.balance), get.balance);
      ghost var ts0, debts0, credits0, i0, j0 := ts, debts, credits, i, j;
      ts := ts + [Transfer(owe.person, get.person, settle)];
      debts := debts[i := Entry(owe.person, owe.balance + settle)];
      credits := credits[j := Entry(get.person, get.balance - settle)];
      if NearZero(debts[i].balance) { i := i + 1; }
      if NearZero(credits[j].balance) { j := j + 1; }
      SettleStep(owes, gets, ts0, debts0, credits0, i0, j0, ts, debts, credits, i, j);
      GreedyStep(owes, gets, ts0, debts0, credits0, i0, j0, ts, debts, credits, i, j);
    }
    SettleEnds(owes, gets, ts, debts, credits, i, j);
    GreedyEnds(owes, gets, ts, debts, credits, i, j);
  }

  /** `owes` (side Debtor) or `gets` (side Creditor): the entries on that
      side, in dict order, sorted by the side's key. */
  function Ranked(b: map<string, real>, order: seq<string>, side: Side): (es: seq<Entry>)
    requires forall k :: 0 <= k < |order| ==> order[k] in b
    ensures forall k :: 0 <= k < |es| ==> OnSide(es[k].balance, side)
  {
    var sel := Select(b, order, side);
    var es := SortBy(sel, side);
    assert forall k :: 0 <= k < |es| ==> es[k] in sel;
    es
  }

  /** Whatever the dict order, `owes` and `gets` hold each person of their
      side exactly once, with the person's balance, sorted by the side's key. */
  lemma RankedPeople(b: map<string, real>, order: seq<string>, side: Side)
    requires Distinct(order) && forall p :: p in order <==> p in b
    ensures var es := Ranked(b, order, side);
      && SortedBy(es, side)
      && (forall k :: 0 <= k < |es| ==> es[k].person in b && es[k].balance == b[es[k].person])
      && (forall k :: 0 <= k < |es| ==> OnSide(es[k].balance, side))
      && Persons(es) == People(b, side)
      && DistinctPersons(es)
      && |es| == |People(b, side)|
  {
    var sel := Select(b, order, side);
    var es := Ranked(b, order, side);
    SelectPersons(b, order, side);
    SortByPersons(sel, side);
    SortByDistinct(sel, side);
    DistinctPersonsCount(es);
    forall k | 0 <= k < |es| ensures es[k].person in b && es[k].balance == b[es[k].person] && OnSide(es[k].balance, side) {
      assert es[k] in sel;
    }
  }

  /** What the suggested payments promise about the balances `b`:
      - every payment moves at least a cent from someone more than a cent in
        debt to someone more than a cent in credit;
      - no debtor pays more than their debt and no creditor receives more
        than their credit;
      - afterwards every debtor, or every creditor, is within a cent of 0;
      - there are fewer payments than debtors and creditors together. */
  predicate SoundPlan(b: map<string, real>, ts: seq<Transfer>) {
    (forall k :: 0 <= k < |ts| ==>
      ts[k].amount >= 0.01 && ts[k].debtor in People(b, Debtor) && ts[k].creditor in People(b, Creditor))
    && (forall p :: p in People(b, Debtor) ==> Outflow(ts, p) <= -b[p])
    && (forall p :: p in People(b, Creditor) ==> Inflow(ts, p) <= b[p])
    && ((forall p :: p in People(b, Debtor) ==> b[p] + Outflow(ts, p) > -0.01)
        || (forall p :: p in People(b, Creditor) ==> b[p] - Inflow(ts, p) < 0.01))
    && |ts| < |People(b, Debtor)| + |People(b, Creditor)|
  }

  /** The greedy loop's guarantees per list position become guarantees per
      person of the balances. */
  lemma SettlePlan(b: map<string, real>, order: seq<string>, ts: seq<Transfer>, debts: seq<Entry>, credits: seq<Entry>)
    requires Distinct(order) && forall p :: p in order <==> p in b
    requires var owes := Ranked(b, order, Debtor);
      var gets := Ranked(b, order, Creditor);
      && TransfersValid(ts, owes, gets)
      && DebtsTrack(owes, debts, ts) && CreditsTrack(gets, credits, ts)
      && ((forall k :: 0 <= k < |debts| ==> NearZero(debts[k].balance))
          || (forall k :: 0 <= k < |credits| ==> NearZero(credits[k].balance)))
      && ts != [] && |ts| < |owes| + |gets|
    ensures SoundPlan(b, ts)
  {
    var owes := Ranked(b, order, Debtor);
    var gets := Ranked(b, order, Creditor);
    RankedPeople(b, order, Debtor);
    RankedPeople(b, order, Creditor);
    DebtorsPaid(b, owes, debts, ts);
    CreditorsPaid(b, gets, credits, ts);
  }

  /** Per person: a debtor of the sorted list pays at most their debt, and
      is within a cent of 0 once every debtor is. */
  lemma DebtorsPaid(b: map<string, real>, owes: seq<Entry>, debts: seq<Entry>, ts: seq<Transfer>)
    requires forall k :: 0 <= k < |owes| ==> owes[k].person in b && owes[k].balance == b[owes[k].person]
    requires DebtsTrack(owes, debts, ts)
    ensures forall p :: p in Persons(owes) ==> p in b && Outflow(ts, p) <= -b[p]
    ensures (forall k :: 0 <= k < |debts| ==> NearZero(debts[k].balance)) ==>
      forall p :: p in Persons(owes) ==> b[p] + Outflow(ts, p) > -0.01
  {
    forall p | p in Persons(owes)
      ensures p in b && Outflow(ts, p) <= -b[p]
      ensures (forall k :: 0 <= k < |debts| ==> NearZero(debts[k].balance)) ==> b[p] + Outflow(ts, p) > -0.01
    {
      var e :| e in owes && e.person == p;
      var k :| 0 <= k < |owes| && owes[k] == e;
    }
  }

  /** Per person: a creditor of the sorted list receives at most their
      credit, and is within a cent of 0 once every creditor is. */
  lemma CreditorsPaid(b: map<string, real>, gets: seq<Entry>, credits: seq<Entry>, ts: seq<Transfer>)
    requires forall k :: 0 <= k < |gets| ==> gets[k].person in b && gets[k].balance == b[gets[k].person]
    requires CreditsTrack(gets, credits, ts)
    ensures forall p :: p in Persons(gets) ==> p in b && Inflow(ts, p) <= b[p]
    ensures (forall k :: 0 <= k < |credits| ==> NearZero(credits[k].balance)) ==>
      forall p :: p in Persons(gets) ==> b[p] - Inflow(ts, p) < 0.01
  {
    forall p | p in Persons(gets)
      ensures p in b && Inflow(ts, p) <= b[p]
      ensures (forall k :: 0 <= k < |credits| ==> NearZero(credits[k].balance)) ==> b[p] - Inflow(ts, p) < 0.01
    {
      var e :| e in gets && e.person == p;
      var k :| 0 <= k < |gets| && gets[k] == e;
    }
  }

  /** Sum of the Amount column. */
  function SumAmounts(rows: seq<Row>): real
  {
    if rows == [] then 0.0 else SumAmounts(rows[..|rows| - 1]) + rows[|rows| - 1].amount
  }

  /** `max_participants = (len(expenses_df.columns) - 3) // 2`. A negative
      value leaves `range(1, max_participants + 1)` empty, as 0 does. */
  function MaxParticipants(columnCount: nat): nat
  {
    if columnCount < 3 then 0 else (columnCount - 3) / 2
  }

  /** The plan the greedy loop emits for the balances `b` when the dict
      lists their keys in some order. */
  ghost predicate GreedyPlan(b: map<string, real>, ts: seq<Transfer>) {
    exists order :: Distinct(order) && (forall p :: p in order <==> p in b)
      && ts == Greedy(Ranked(b, order, Debtor), Ranked(b, order, Creditor), 0, 0)
  }

  /** The second half of calculate_settlement, from the balances on:
      "Everyone is settled up!" exactly when nobody is more than a cent in
      debt or nobody is more than a cent in credit; otherwise the non-empty
      greedy plan, which is sound for the balances. */
  method PlanPayments(balances: map<string, real>) returns (r: Settlement)
    ensures !r.NothingToSettle?
    ensures r.SettledUp? <==> People(balances, Debtor) == {} || People(balances, Creditor) == {}
    ensures r.Payments? ==> r.transfers != [] && SoundPlan(balances, r.transfers) && GreedyPlan(balances, r.transfers)
  {
    var order := DictOrder(balances);
    var owes := Ranked(balances, order, Debtor);
    var gets := Ranked(balances, order, Creditor);
    RankedPeople(balances, order, Debtor);
    RankedPeople(balances, order, Creditor);
    var ts, debts, credits := Settle(owes, gets);
    if ts == [] {
      assert owes == [] || gets == [];
      return SettledUp;
    }
    SettlePlan(balances, order, ts, debts, credits);
    return Payments(ts);
  }

  /** calculate_settlement. `columnCount` is the number of columns of the
      expense table, `n` says which get_participant_data reads the rows.
      - "Enter some expenses..." exactly when there are no rows or the
        amounts sum to 0;
      - otherwise "Everyone is settled up!" exactly when nobody is more than
        a cent in debt or nobody is more than a cent in credit;
      - otherwise a non-empty list of payments that is sound for the balances
        of the ledger (`SoundPlan`; `BalancesConserved` describes the
        balances), and is the one the greedy loop emits (`GreedyPlan`). */
  method CalculateSettlement(rows: seq<Row>, columnCount: nat, n: Normaliser) returns (r: Settlement)
    ensures r.NothingToSettle? <==> rows == [] || SumAmounts(rows) == 0.0
    ensures r.SettledUp? <==>
      (!(rows == [] || SumAmounts(rows) == 0.0)
       && (People(LedgerBalances(rows, MaxParticipants(columnCount), n), Debtor) == {}
           || People(LedgerBalances(rows, MaxParticipants(columnCount), n), Creditor) == {}))
    ensures r.Payments? ==>
      && r.transfers != []
      && SoundPlan(LedgerBalances(rows, MaxParticipants(columnCount), n), r.transfers)
      && GreedyPlan(LedgerBalances(rows, MaxParticipants(columnCount), n), r.transfers)
  {
    if rows == [] || SumAmounts(rows) == 0.0 {
      return NothingToSettle;
    }
    var maxParticipants := MaxParticipants(columnCount);
    var init := map p | p in InvolvedPeople(rows, n) :: 0.0;
    var balances := AccumulateBalances(init, rows, maxParticipants, n);
    r := PlanPayments(balances);
  }

  /** When one person alone is on a side, that side's list is just them. */
  lemma RankedAlone(b: map<string, real>, order: seq<string>, side: Side, p: string)
    requires Distinct(order) && forall q :: q in order <==> q in b
    requires People(b, side) == {p}
    ensures p in b && Ranked(b, order, side) == [Entry(p, b[p])]
  {
    var es := Ranked(b, order, side);
    RankedPeople(b, order, side);
    assert es[0].person in Persons(es);
  }

  /** The greedy loop need not bring every balance within a cent of 0.
      With balances A -5, C 4.98, D 0.01 and E 0.01 (they sum to 0), D and E
      are on neither list, A pays C 4.98, C's cursor runs off its list, and
      A is left owing 0.02 whatever order the dict lists the keys in. */
  lemma DebtLeftAfterSettling(order: seq<string>)
    requires Distinct(order)
    requires forall p :: p in order <==> p in map["A" := -5.0, "C" := 4.98, "D" := 0.01, "E" := 0.01]
    ensures var b := map["A" := -5.0, "C" := 4.98, "D" := 0.01, "E" := 0.01];
      var ts := Greedy(Ranked(b, order, Debtor), Ranked(b, order, Creditor), 0, 0);
      && b["A"] + b["C"] + b["D"] + b["E"] == 0.0
      && ts == [Transfer("A", "C", 4.98)]
      && b["A"] + Outflow(ts, "A") == -0.02
  {
    var b := map["A" := -5.0, "C" := 4.98, "D" := 0.01, "E" := 0.01];
    assert People(b, Debtor) == {"A"};
    assert People(b, Creditor) == {"C"};
    RankedAlone(b, order, Debtor, "A");
    RankedAlone(b, order, Creditor, "C");
    GreedyOneStep();
  }

  /** A -5 paying C 4.98: one payment of 4.98, and C's cursor runs off. */
  lemma GreedyOneStep()
    ensures var ts := Greedy([Entry("A", -5.0)], [Entry("C", 4.98)], 0, 0);
      ts == [Transfer("A", "C", 4.98)] && -5.0 + Outflow(ts, "A") == -0.02
  {
    var owes := [Entry("A", -5.0)];
    var gets := [Entry("C", 4.98)];
    GreedyUnfold(owes, gets, 0, 0, [Entry("A", -0.02)], [Entry("C", 0.0)], 0, 1);
    var ts := Greedy(owes, gets, 0, 0);
    assert ts[..0] == [];
  }

}

=== FILE: summary.dfy ===
/** generate_summary: the Total Paid, Total Owed and Difference of every
    person on a roster (src/logic.py, and its copy in app.py). */
module Summary {
  import opened Wrappers
  import opened Ledger
  import opened Participants
  import opened Balances
  import Settlement
  import Text

  /** One column of the summary table. */
  datatype Column = Column(person: string, totalPaid: real, totalOwed: real, difference: real)

  /** `df.groupby('Payer')['Amount'].sum()[p]`: the Amount of every row whose
      Payer cell is exactly `p`, skipped rows included. */
  function PaidBy(rows: seq<Row>, p: string): real
  {
    if rows == [] then 0.0
    else PaidBy(rows[..|rows| - 1], p) + (if rows[|rows| - 1].payer == Some(p) then rows[|rows| - 1].amount else 0.0)
  }

  /** The Payer cells that are not NaN: the groups of the groupby. */
  function Payers(rows: seq<Row>): set<string>
  {
    set r | r in rows && r.payer.Some? :: r.payer.value
  }

  /** `paid_summary`: one sum per payer. */
  function GroupSums(rows: seq<Row>): map<string, real>
  {
    map p | p in Payers(rows) :: PaidBy(rows, p)
  }

  /** Someone who never appears as payer has paid nothing. */
  lemma {:induction false} PaidByAbsent(rows: seq<Row>, p: string)
    requires p !in Payers(rows)
    ensures PaidBy(rows, p) == 0.0
  {
    if rows != [] {
      var init := rows[..|rows| - 1];
      assert forall r :: r in init ==> r in rows;
      assert rows[|rows| - 1] in rows;
      PaidByAbsent(init, p);
    }
  }

  /** `for person, amount in paid_summary.items(): if person in total_paid:
      total_paid[person] = amount`. Names that are not already keys are
      ignored, so the keys do not change. */
  method CopyGroups(paid: map<string, real>, groups: map<string, real>) returns (r: map<string, real>)
    ensures r.Keys == paid.Keys
    ensures forall p :: p in r ==> r[p] == if p in groups then groups[p] else paid[p]
  {
    r := paid;
    var remaining := groups.Keys;
    while remaining != {}
      invariant remaining <= groups.Keys
      invariant r.Keys == paid.Keys
      invariant forall p :: p in r ==> r[p] == if p in groups && p !in remaining then groups[p] else paid[p]
      decreases |remaining|
    {
      var person :| person in remaining;
      if person in r {
        r := r[person := groups[person]];
      }
      remaining := remaining - {person};
    }
  }

  /** The charges of one row added to `total_owed`, in order: a charge to a
      name that is not a key is dropped. */
  function Accrue(o: map<string, real>, cs: seq<Charge>): map<string, real>
  {
    if cs == [] then o
    else
      var prev := Accrue(o, cs[..|cs| - 1]);
      var c := cs[|cs| - 1];
      if c.name in prev then prev[c.name := prev[c.name] + c.amount] else prev
  }

  /** Adding charges keeps the keys and adds to each key the charges to it. */
  lemma {:induction false} AccrueAt(o: map<string, real>, cs: seq<Charge>, p: string)
    ensures Accrue(o, cs).Keys == o.Keys
    ensures p in o ==> Accrue(o, cs)[p] == o[p] + ChargedTo(cs, p)
  {
    if cs != [] {
      AccrueAt(o, cs[..|cs| - 1], p);
    }
  }

  /** What one row adds to `total_owed`: nothing for a skipped row, otherwise
      `cost_per_head * count` per share whose name is on the roster. */
  function OweRow(o: map<string, real>, row: Row, numParticipants: nat, n: Normaliser): map<string, real>
  {
    if !Accepted(row, numParticipants, n) then o
    else Accrue(o, Charges(Shares(row, numParticipants, n).value, CostPerHead(row, numParticipants, n)))
  }

  /** `total_owed` after the rows, in ledger order. */
  function OweRows(o: map<string, real>, rows: seq<Row>, numParticipants: nat, n: Normaliser): map<string, real>
  {
    if rows == [] then o
    else OweRow(OweRows(o, rows[..|rows| - 1], numParticipants, n), rows[|rows| - 1], numParticipants, n)
  }

  /** One row adds to each roster name exactly what it debits that name in
      calculate_settlement. */
  lemma OweRowAt(o: map<string, real>, row: Row, numParticipants: nat, n: Normaliser, p: string)
    ensures OweRow(o, row, numParticipants, n).Keys == o.Keys
    ensures p in o ==> OweRow(o, row, numParticipants, n)[p] == o[p] + RowDebt(row, numParticipants, n, p)
  {
    if Accepted(row, numParticipants, n) {
      var shares := Shares(row, numParticipants, n).value;
      var cost := CostPerHead(row, numParticipants, n);
      AccrueAt(o, Charges(shares, cost), p);
      ChargesTo(shares, cost, p);
    }
  }

  /** After the rows, each roster name has accrued everything it owes, and
      nothing was added for other names. */
  lemma {:induction false} OweRowsAt(o: map<string, real>, rows: seq<Row>, numParticipants: nat, n: Normaliser, p: string)
    ensures OweRows(o, rows, numParticipants, n).Keys == o.Keys
    ensures p in o ==> OweRows(o, rows, numParticipants, n)[p] == o[p] + Owed(rows, numParticipants, n, p)
  {
    if rows != [] {
      var init := rows[..|rows| - 1];
      OweRowsAt(o, init, numParticipants, n, p);
      OweRowAt(OweRows(o, init, numParticipants, n), rows[|rows| - 1], numParticipants, n, p);
    }
  }

  /** One more charge accrued. */
  lemma AccrueSnoc(o: map<string, real>, cs: seq<Charge>, c: Charge)
    ensures Accrue(o, cs + [c])
         == var prev := Accrue(o, cs);
            if c.name in prev then prev[c.name := prev[c.name] + c.amount] else prev
  {
    assert (cs + [c])[..|cs|] == cs;
  }

  /** One more share of a row accrued. */
  lemma AccrueShareStep(o: map<string, real>, shares: seq<Share>, cost: real, k: nat,
                        before: map<string, real>, after: map<string, real>)
    requires k < |shares|
    requires before == Accrue(o, Charges(shares[..k], cost))
    requires after == if shares[k].name in before
                      then before[shares[k].name := before[shares[k].name] + Times(cost, shares[k].count)]
                      else before
    ensures after == Accrue(o, Charges(shares[..k + 1], cost))
  {
    ChargesSnoc(shares, cost, k);
    AccrueSnoc(o, Charges(shares[..k], cost), Charge(shares[k].name, Times(cost, shares[k].count)));
  }

  /** The inner loop over an accepted row's participants:
      `if participant in total_owed: total_owed[participant] += cost_per_head * count`. */
  method AccrueShares(o: map<string, real>, shares: seq<Share>, cost: real) returns (r: map<string, real>)
    ensures r == Accrue(o, Charges(shares, cost))
  {
    r := o;
    for k := 0 to |shares|
      invariant r == Accrue(o, Charges(shares[..k], cost))
    {
      ghost var before := r;
      var participant := shares[k].name;
      if participant in r {
        r := r[participant := r[participant] + Times(cost, shares[k].count)];
      }
      AccrueShareStep(o, shares, cost, k, before, r);
    }
    assert shares[..|shares|] == shares;
  }

  /** The body of the row loop of generate_summary: a row with a
      non-positive amount, a Members cell int() rejects or no positive head
      count adds nothing. */
  method AccrueRow(o: map<string, real>, row: Row, numParticipants: nat, n: Normaliser) returns (r: map<string, real>)
    ensures r == OweRow(o, row, numParticipants, n)
  {
    r := o;
    if row.amount <= 0.0 {
      return;
    }
    var data := ParticipantData(row, numParticipants, n);
    if data.None? {
      return;  // int() raised: the except clause skips the row
    }
    var totalHeads := data.value.totalHeads;
    if totalHeads > 0 {
      var cost := row.amount / totalHeads as real;
      r := AccrueShares(r, data.value.shares, cost);
    }
  }

  /** Applying one more row of the ledger to `total_owed`. */
  lemma OweRowsStep(o: map<string, real>, rows: seq<Row>, numParticipants: nat, n: Normaliser, i: nat)
    requires i < |rows|
    ensures OweRows(o, rows[..i + 1], numParticipants, n)
         == OweRow(OweRows(o, rows[..i], numParticipants, n), rows[i], numParticipants, n)
  {
    assert rows[..i + 1][..i] == rows[..i];
  }

  /** The row loop of generate_summary that fills `total_owed`. */
  method TotalOwed(init: map<string, real>, rows: seq<Row>, numParticipants: nat, n: Normaliser) returns (o: map<string, real>)
    ensures o == OweRows(init, rows, numParticipants, n)
  {
    o := init;
    for i := 0 to |rows|
      invariant o == OweRows(init, rows[..i], numParticipants, n)
    {
      OweRowsStep(init, rows, numParticipants, n, i);
      o := AccrueRow(o, rows[i], numParticipants, n);
    }
    assert rows[..|rows|] == rows;
  }

  /** generate_summary(df, all_people, num_participants); `n` says which
      get_participant_data reads the rows. One column per roster entry, in
      roster order, and no column for anyone else:
      - Total Paid is the Amount sum of the rows the person is the Payer
        cell of, skipped rows included;
      - Total Owed is what the accepted rows charge the person, exactly what
        calculate_settlement debits them (`Owed`);
      - Difference is Total Paid minus Total Owed;
      - an empty ledger gives all zeros. */
  method GenerateSummary(rows: seq<Row>, roster: seq<string>, numParticipants: nat, n: Normaliser)
    returns (table: seq<Column>)
    ensures |table| == |roster|
    ensures forall k :: 0 <= k < |table| ==> table[k].person == roster[k]
    ensures forall k :: 0 <= k < |table| ==>
      && table[k].totalPaid == PaidBy(rows, roster[k])
      && table[k].totalOwed == Owed(rows, numParticipants, n, roster[k])
      && table[k].difference == table[k].totalPaid - table[k].totalOwed
    ensures rows == [] ==> forall k :: 0 <= k < |table| ==>
      table[k].totalPaid == 0.0 && table[k].totalOwed == 0.0 && table[k].difference == 0.0
  {
    if rows == [] || roster == [] {
      return seq(|roster|, k requires 0 <= k < |roster| => Column(roster[k], 0.0, 0.0, 0.0));
    }
    var totalPaid := map p | p in roster :: 0.0;
    var totalOwed := map p | p in roster :: 0.0;
    totalPaid := CopyGroups(totalPaid, GroupSums(rows));
    totalOwed := TotalOwed(totalOwed, rows, numParticipants, n);
    forall p | p in roster
      ensures Get(totalPaid, p) == PaidBy(rows, p)
      ensures Get(totalOwed, p) == Owed(rows, numParticipants, n, p)
    {
      if p !in Payers(rows) {
        PaidByAbsent(rows, p);
      }
      OweRowsAt(map p | p in roster :: 0.0, rows, numParticipants, n, p);
    }
    table := seq(|roster|, k requires 0 <= k < |roster| =>
      Column(roster[k], Get(totalPaid, roster[k]), Get(totalOwed, roster[k]),
             Get(totalPaid, roster[k]) - Get(totalOwed, roster[k])));
  }

  /** A row both loops accept whose Payer cell is an already stripped name. */
  predicate CleanRow(row: Row, numParticipants: nat, n: Normaliser) {
    Accepted(row, numParticipants, n) && row.payer.Some? && Text.Trim(row.payer.value) == row.payer.value
  }

  /** A clean row credits its Payer cell's name with its amount. */
  lemma CleanRowCredit(row: Row, numParticipants: nat, n: Normaliser, p: string)
    requires CleanRow(row, numParticipants, n)
    ensures RowCredit(row, numParticipants, n, p) == if row.payer == Some(p) then row.amount else 0.0
  {
  }

  /** When each row credits `p` with its amount exactly when `p` is its Payer
      cell, what `p` paid as the Payer cell is what calculate_settlement
      credits them. */
  lemma {:induction false} PaidByCredited(rows: seq<Row>, numParticipants: nat, n: Normaliser, p: string)
    requires forall i :: 0 <= i < |rows| ==>
      RowCredit(rows[i], numParticipants, n, p) == if rows[i].payer == Some(p) then rows[i].amount else 0.0
    ensures PaidBy(rows, p) == Credited(rows, numParticipants, n, p)
  {
    if rows != [] {
      var init := rows[..|rows| - 1];
      assert forall i :: 0 <= i < |init| ==> init[i] == rows[i];
      PaidByCredited(init, numParticipants, n, p);
    }
  }

  /** When every row is accepted and every Payer cell is a stripped name, a
      person's Difference is their settlement balance: the summary and
      calculate_settlement agree. */
  lemma SummaryAgreesWithBalances(rows: seq<Row>, numParticipants: nat, n: Normaliser, p: string)
    requires forall r :: r in rows ==> CleanRow(r, numParticipants, n)
    ensures PaidBy(rows, p) - Owed(rows, numParticipants, n, p)
         == Get(LedgerBalances(rows, numParticipants, n), p)
  {
    forall i | 0 <= i < |rows|
      ensures RowCredit(rows[i], numParticipants, n, p) == if rows[i].payer == Some(p) then rows[i].amount else 0.0
    {
      CleanRowCredit(rows[i], numParticipants, n, p);
    }
    PaidByCredited(rows, numParticipants, n, p);
    BalancesConserved(rows, numParticipants, n);
  }

  /** calculate_settlement reads `MaxParticipants(column count)` slots per
      row, generate_summary reads `num_participants` of them. When the two
      counts agree and every row is clean, a person's Difference is the
      balance calculate_settlement settles. */
  lemma SummaryAgreesWithSettlement(rows: seq<Row>, columnCount: nat, numParticipants: nat, n: Normaliser, p: string)
    requires numParticipants == Settlement.MaxParticipants(columnCount)
    requires forall r :: r in rows ==> CleanRow(r, numParticipants, n)
    ensures PaidBy(rows, p) - Owed(rows, numParticipants, n, p)
         == Get(LedgerBalances(rows, Settlement.MaxParticipants(columnCount), n), p)
  {
    SummaryAgreesWithBalances(rows, numParticipants, n, p);
  }

  /** With different slot counts they disagree even on a clean ledger: when
      `a` pays 30 for the slots `b` and `c`, a summary that reads one slot
      charges `b` the whole 30, while calculate_settlement, reading the two
      slots a 7-column table gives, splits it between `b` and `c`. */
  lemma SlotCountsDisagree(a: string, b: string, c: string)
    requires Stripped(a) && Stripped(b) && Stripped(c) && a != b && b != c
    ensures var rows := [SlotCountsRow(a, b, c)];
      && Settlement.MaxParticipants(7) == 2
      && CleanRow(rows[0], 1, SlotsOnly) && CleanRow(rows[0], 2, SlotsOnly)
      && PaidBy(rows, b) - Owed(rows, 1, SlotsOnly, b) == -30.0
      && Get(LedgerBalances(rows, Settlement.MaxParticipants(7), SlotsOnly), b) == -15.0
  {
    OneSlotDifference(a, b, c);
    TwoSlotBalance(a, b, c);
  }

  /** A name with no whitespace at either end. */
  predicate Stripped(s: string) {
    s != [] && !Text.IsSpace(s[0]) && !Text.IsSpace(s[|s| - 1])
  }

  /** `a` pays 30, split between the slots `b` and `c`, one head each. */
  function SlotCountsRow(a: string, b: string, c: string): Row {
    Row(Some(a), 30.0, None, [Slot(Some(b), Count(1)), Slot(Some(c), Count(1))])
  }

  /** A summary reading one slot charges `b` the whole 30. */
  lemma OneSlotDifference(a: string, b: string, c: string)
    requires Stripped(a) && Stripped(b) && Stripped(c) && a != b
    ensures CleanRow(SlotCountsRow(a, b, c), 1, SlotsOnly)
    ensures var rows := [SlotCountsRow(a, b, c)];
      PaidBy(rows, b) - Owed(rows, 1, SlotsOnly, b) == -30.0
  {
    var row := SlotCountsRow(a, b, c);
    var rows := [row];
    var shares := [Share(b, 1)];
    OneSlotShares(a, b, c);
    assert shares[..0] == [];
    assert SumCounts(shares) == 1 && CountFor(shares, b) == 1;
    assert Accepted(row, 1, SlotsOnly) && CostPerHead(row, 1, SlotsOnly) == 30.0;
    assert RowDebt(row, 1, SlotsOnly, b) == Times(30.0, 1) == 30.0;
    assert rows[..0] == [];
    assert Owed(rows, 1, SlotsOnly, b) == 30.0;
    assert PaidBy(rows, b) == 0.0;
  }

  /** calculate_settlement reading two slots charges `b` half of it. */
  lemma TwoSlotBalance(a: string, b: string, c: string)
    requires Stripped(a) && Stripped(b) && Stripped(c) && a != b && b != c
    ensures CleanRow(SlotCountsRow(a, b, c), 2, SlotsOnly)
    ensures Get(LedgerBalances([SlotCountsRow(a, b, c)], 2, SlotsOnly), b) == -15.0
  {
    var row := SlotCountsRow(a, b, c);
    var rows := [row];
    var shares := [Share(b, 1), Share(c, 1)];
    TwoSlotShares(a, b, c);
    var first := [Share(b, 1)];
    assert shares[..|shares| - 1] == first && first[..|first| - 1] == [];
    assert SumCounts(first) == 1;
    assert CountFor(first, b) == 1;
    assert SumCounts(shares) == 2;
    assert CountFor(shares, b) == 1;
    assert Accepted(row, 2, SlotsOnly) && CostPerHead(row, 2, SlotsOnly) == 15.0;
    assert RowDebt(row, 2, SlotsOnly, b) == Times(15.0, 1) == 15.0;
    assert RowCredit(row, 2, SlotsOnly, b) == 0.0;
    assert rows[..0] == [];
    assert Owed(rows, 2, SlotsOnly, b) == 15.0;
    assert Credited(rows, 2, SlotsOnly, b) == 0.0;
    BalancesConserved(rows, 2, SlotsOnly);
  }

  /** The slot part of the row's first slot alone: `b` with one head. */
  lemma FirstSlotShares(a: string, b: string, c: string)
    requires Stripped(b)
    ensures SlotShares(SlotCountsRow(a, b, c).slots[..1]) == Some([Share(b, 1)])
  {
    var s := SlotCountsRow(a, b, c).slots[..1];
    Text.TrimmedIsFixed(b);
    assert s[..0] == [];
    assert SlotShares(s[..0]) == Some([]);
    assert Named(s[0]) && s[0].members == Count(1);
    assert [] + [Share(b, 1)] == [Share(b, 1)];
  }

  /** Reading one slot of the row sees only `b`. */
  lemma OneSlotShares(a: string, b: string, c: string)
    requires Stripped(a) && Stripped(b)
    ensures PayerName(SlotCountsRow(a, b, c)) == a
    ensures Shares(SlotCountsRow(a, b, c), 1, SlotsOnly) == Some([Share(b, 1)])
  {
    var row := SlotCountsRow(a, b, c);
    Text.TrimmedIsFixed(a);
    FirstSlotShares(a, b, c);
    assert Visible(row, 1) == row.slots[..1];
    assert [] + [Share(b, 1)] == [Share(b, 1)];
  }

  /** Reading two slots of the row sees `b` and `c`. */
  lemma TwoSlotShares(a: string, b: string, c: string)
    requires Stripped(a) && Stripped(b) && Stripped(c)
    ensures PayerName(SlotCountsRow(a, b, c)) == a
    ensures Shares(SlotCountsRow(a, b, c), 2, SlotsOnly) == Some([Share(b, 1), Share(c, 1)])
  {
    var row := SlotCountsRow(a, b, c);
    var s := row.slots;
    Text.TrimmedIsFixed(a);
    Text.TrimmedIsFixed(c);
    FirstSlotShares(a, b, c);
    assert s[..|s| - 1] == s[..1];
    assert Named(s[1]) && s[1].members == Count(1);
    assert SlotShares(s) == Some([Share(b, 1)] + [Share(c, 1)]);
    assert Visible(row, 2) == s;
    assert [] + ([Share(b, 1)] + [Share(c, 1)]) == [Share(b, 1), Share(c, 1)];
  }

  /** Without those conditions they disagree: a positive row without
      participants is skipped by both loops, yet its payer's Total Paid
      counts it, so the Difference is 10 while the balance is 0. */
  lemma SkippedRowStillPaid()
    ensures var rows := [Row(Some("A"), 10.0, None, [])];
      && PaidBy(rows, "A") == 10.0
      && Owed(rows, 0, SlotsOnly, "A") == 0.0
      && Get(LedgerBalances(rows, 0, SlotsOnly), "A") == 0.0
  {
    var rows := [Row(Some("A"), 10.0, None, [])];
    assert rows[..0] == [];
    assert !Accepted(rows[0], 0, SlotsOnly);
    BalancesConserved(rows, 0, SlotsOnly);
  }

}

=== FILE: text.dfy ===
/** The pieces of Python's `str` the core relies on: `strip()`, `split(',')`
    and the code-point order `sorted` uses on strings. A comma join is here
    too, only to state that parse_names reaches a fixed point. */
module Text {

  /** The characters Python's `str.isspace()` accepts, which are the ones
      `str.strip()` with no argument removes. */
  predicate IsSpace(c: char) {
    c == ' ' || ('\t' <= c <= '\r') || ('\U{1c}' <= c <= '\U{1f}')
    || c == '\U{85}' || c == '\U{a0}' || c == '\U{1680}'
    || ('\U{2000}' <= c <= '\U{200a}') || c == '\U{2028}' || c == '\U{2029}'
    || c == '\U{202f}' || c == '\U{205f}' || c == '\U{3000}'
  }

  /** True when every character of `s` is whitespace (also for ""). */
  predicate IsBlank(s: string) {
    forall i :: 0 <= i < |s| ==> IsSpace(s[i])
  }

  function TrimStart(s: string): (r: string)
    ensures |r| <= |s| && r == s[|s| - |r|..]
    ensures r == [] || !IsSpace(r[0])
    ensures forall i :: 0 <= i < |s| - |r| ==> IsSpace(s[i])
  {
    if s != [] && IsSpace(s[0]) then TrimStart(s[1..]) else s
  }

  function TrimEnd(s: string): (r: string)
    ensures |r| <= |s| && r == s[..|r|]
    ensures r == [] || !IsSpace(r[|r| - 1])
    ensures forall i :: |r| <= i < |s| ==> IsSpace(s[i])
  {
    if s != [] && IsSpace(s[|s| - 1]) then TrimEnd(s[..|s| - 1]) else s
  }

  /** `r` is a slice of `s` with only whitespace before and after it. */
  predicate StrippedOf(r: string, s: string) {
    exists k :: 0 <= k <= |s| - |r| && r == s[k..k + |r|] && IsBlank(s[..k]) && IsBlank(s[k + |r|..])
  }

  /** Python's `s.strip()`: `s` without its leading and trailing whitespace.
      It neither starts nor ends with whitespace; `TrimIsStrip` shows it is
      the slice of `s` with only whitespace before and after it. */
  function Trim(s: string): (r: string)
    ensures r == [] || (!IsSpace(r[0]) && !IsSpace(r[|r| - 1]))
    ensures r == [] <==> IsBlank(s)
    ensures forall c :: c in r ==> c in s
  {
    var t := TrimStart(s);
    var r := TrimEnd(t);
    TrimmedSlice(s, t, r);
    r
  }

  /** strip() removes whitespace at the two ends and nothing else: its result
      is a slice of `s` with only whitespace before and after it. */
  lemma TrimIsStrip(s: string)
    ensures StrippedOf(Trim(s), s)
  {
    TrimmedSlice(s, TrimStart(s), TrimEnd(TrimStart(s)));
  }

  /** Dropping a whitespace prefix and then a whitespace suffix leaves a
      slice of `s` with only whitespace around it; when what is dropped
      stops at non-whitespace, the slice is empty only for a blank `s`. */
  lemma TrimmedSlice(s: string, t: string, r: string)
    requires |t| <= |s| && t == s[|s| - |t|..] && forall i :: 0 <= i < |s| - |t| ==> IsSpace(s[i])
    requires t == [] || !IsSpace(t[0])
    requires |r| <= |t| && r == t[..|r|] && forall i :: |r| <= i < |t| ==> IsSpace(t[i])
    requires r == [] || !IsSpace(r[|r| - 1])
    ensures StrippedOf(r, s)
    ensures r == [] || (!IsSpace(r[0]) && !IsSpace(r[|r| - 1]))
    ensures r == [] <==> IsBlank(s)
    ensures forall c :: c in r ==> c in s
  {
    var k := |s| - |t|;
    assert r == s[k..k + |r|];
    assert IsBlank(s[..k]);
    var suffix := s[k + |r|..];
    forall i | 0 <= i < |suffix| ensures IsSpace(suffix[i]) {
      assert suffix[i] == t[|r| + i];
    }
    if r == [] {
      assert t == [];
    } else {
      assert r[0] == s[k];
    }
  }

  /** A string without leading or trailing whitespace is its own strip(). */
  lemma TrimmedIsFixed(s: string)
    requires s == [] || (!IsSpace(s[0]) && !IsSpace(s[|s| - 1]))
    ensures Trim(s) == s
  {
  }

  /** strip() is idempotent. */
  lemma TrimIdempotent(s: string)
    ensures Trim(Trim(s)) == Trim(s)
  {
    TrimmedIsFixed(Trim(s));
  }

  /** Python's `s.split(',')`: the pieces between commas, empty ones included;
      never an empty list. */
  function Split(s: string): (pieces: seq<string>)
    ensures |pieces| >= 1
    ensures forall p :: p in pieces ==> ',' !in p
    ensures forall p, c :: p in pieces && c in p ==> c in s
    decreases |s|
  {
    if s == [] then [""]
    else
      var rest := Split(s[1..]);
      if s[0] == ',' then [""] + rest
      else [[s[0]] + rest[0]] + rest[1..]
  }

  /** A comma join, `','.join(pieces)`: the inverse of `Split` on comma-free pieces. */
  function Join(pieces: seq<string>): string
  {
    if pieces == [] then ""
    else if |pieces| == 1 then pieces[0]
    else pieces[0] + "," + Join(pieces[1..])
  }

  /** Splitting at the commas and joining with commas gives back the input. */
  lemma {:induction false} JoinSplit(s: string)
    ensures Join(Split(s)) == s
    decreases |s|
  {
    if s != [] {
      var rest := Split(s[1..]);
      JoinSplit(s[1..]);
      if s[0] == ',' {
        assert Split(s) == [""] + rest;
        assert s == "" + "," + Join(rest);
      } else if |rest| == 1 {
        assert Split(s) == [[s[0]] + rest[0]];
      } else {
        var ps := Split(s);
        assert ps[1..] == rest[1..];
        assert Join(rest) == rest[0] + "," + Join(rest[1..]);
        assert s == [s[0]] + Join(rest);
      }
    }
  }

  /** A character other than a comma joins the first piece of what follows it. */
  lemma SplitCons(c: char, t: string)
    requires c != ','
    ensures Split([c] + t) == [[c] + Split(t)[0]] + Split(t)[1..]
  {
    assert ([c] + t)[1..] == t;
  }

  /** A comma-free prefix stays glued to the first piece of what follows it. */
  lemma {:induction false} SplitCommaFreePrefix(a: string, t: string)
    requires ',' !in a
    ensures Split(a + t) == [a + Split(t)[0]] + Split(t)[1..]
    decreases |a|
  {
    var ps := Split(t);
    if a != [] {
      var rest := a[1..] + t;
      assert a + t == [a[0]] + rest;
      SplitCons(a[0], rest);
      SplitCommaFreePrefix(a[1..], t);
      assert Split(rest)[0] == a[1..] + ps[0];
      assert Split(rest)[1..] == ps[1..];
      assert [a[0]] + (a[1..] + ps[0]) == a + ps[0];
    } else {
      assert a + t == t && a + ps[0] == ps[0];
      assert ps == [ps[0]] + ps[1..];
    }
  }

  /** Joining comma-free pieces and splitting again gives back the pieces. */
  lemma {:induction false} SplitJoin(pieces: seq<string>)
    requires |pieces| >= 1
    requires forall p :: p in pieces ==> ',' !in p
    ensures Split(Join(pieces)) == pieces
  {
    if |pieces| > 1 {
      var tail := Join(pieces[1..]);
      SplitJoin(pieces[1..]);
      assert Split("," + tail) == [""] + Split(tail);
      SplitCommaFreePrefix(pieces[0], "," + tail);
      assert pieces[0] + "," + tail == pieces[0] + ("," + tail);
      assert pieces[0] + "" == pieces[0];
    } else {
      SplitCommaFreePrefix(pieces[0], "");
      assert pieces[0] + "" == pieces[0];
    }
  }

  /** Python's `<` on str: lexicographic by code point, a proper prefix first. */
  predicate Less(a: string, b: string) {
    if a == [] then b != []
    else if b == [] then false
    else if a[0] != b[0] then a[0] < b[0]
    else Less(a[1..], b[1..])
  }

  lemma {:induction false} LessIrreflexive(a: string)
    ensures !Less(a, a)
  {
    if a != [] { LessIrreflexive(a[1..]); }
  }

  lemma {:induction false} LessTransitive(a: string, b: string, c: string)
    requires Less(a, b) && Less(b, c)
    ensures Less(a, c)
  {
    if a != [] && b != [] && c != [] && a[0] == b[0] == c[0] {
      LessTransitive(a[1..], b[1..], c[1..]);
    }
  }

  lemma {:induction false} LessTotal(a: string, b: string)
    ensures a == b || Less(a, b) || Less(b, a)
  {
    if a != [] && b != [] && a[0] == b[0] {
      LessTotal(a[1..], b[1..]);
      if a[1..] == b[1..] {
        assert a == [a[0]] + a[1..] && b == [b[0]] + b[1..];
      }
    }
  }

}

=== FILE: wrappers.dfy ===
/** The optional value used across the model for Python's "missing / not of the
    expected type" cells and for conversions that raise. */
module Wrappers {

  datatype Option<+T> = None | Some(value: T)

}
